=== FILE: README.md ===
# A Dafny model of the mini-program's GLB loader and request helpers

This project models the deterministic core of a WeChat mini-program written in TypeScript and JavaScript. Every operation is a pure function over immutable data.

- **GLB loader** (`src/utils/GLBLoader.js`). It covers:
  - the binary container reader for chapter 4 ("GLB File Format Specification") of glTF 2.0;
  - the loader's own lossy UTF-8 decoder;
  - the accessor resolver for section 3.6.2 ("Accessors") of glTF 2.0;
  - index-aligned texture slots;
  - material-list construction;
  - mesh/primitive construction with per-primitive failure isolation;
  - scene-graph construction;
  - the pipeline that chains these stages.
- **Environment coercion** (`src/common/helper/EnvHelper.ts`). String values become booleans, integers, `null`, `undefined` or stay strings.
- **Expiring local storage** (`src/common/helper/localStorageHelper.ts`). A map with an explicit clock `now`, plus the token, user-info and category-cache helpers.
- **Error-code handler** (`src/plugin/request/errorCodeHandler.ts`, codes from `src/common/constants/ErrorCodeEnum.ts`). It dispatches on the printed code. The auth-error re-entrancy flag is a two-state machine that is reset by an explicit "navigation settled" event.
- **Request wrapper** (`src/plugin/request/Axios.ts`). It covers:
  - the constructor defaults;
  - `buildUrl`, with the query component of section 3.4 of RFC 3986 and `encodeURIComponent` taken as a parameter;
  - the header merge;
  - the classification of HTTP statuses and network failures.

## Modelling choices

**JavaScript runtime behaviour.** The model follows the JavaScript runtime where the loader relies on it:

- A `DataView` read past the end throws; this is the `Truncated` error.
- `ArrayBuffer.slice` clamps its end.
- `new TypedArray(null, …)` quietly gives an empty array. This happens when there is no binary chunk.
- A typed-array offset that is not a multiple of the element width throws (`Misaligned`).
- Reading `bytes[i + 1]` past the end and masking it gives 0.
- An absent JSON array behaves like an empty one.

**Failures.** Every uncaught `TypeError` in node building aborts the load. This covers an unknown node index, and a mesh index with no entry in the compacted mesh list. Cyclic `children` recurse without a guard. The recursion carries `fuel`, and running out of fuel is the `RecursionLimit` error that stands for the stack overflow.

**Inputs.** These become parameters:

- the `JSON.parse`-and-read step, `parseJson`;
- the per-texture image decode outcome, `decodeOk`, and whether a canvas exists;
- `encodeURIComponent`, `enc`;
- the clock, `now`.

**Text.** Strings decoded from bytes are sequences of UTF-16 code units (integers below 0x10000).

**Loader behaviour worth knowing.** The model keeps these as the JavaScript has them:

- `byteStride` is ignored: accessors are read as tightly packed, although glTF 2.0 lets a buffer view interleave attributes through `byteStride`.
- 4-byte UTF-8 sequences produce no output: the decoder skips them.
- A document with no scenes yields an empty root group.
- An out-of-range primitive material falls back to `materials[0]`. That is the default material only when the document declares none.

## Model

| member | source | states |
|---|---|---|
| Bytes.U32LE | src/utils/GLBLoader.js:92 | the little-endian 32-bit read is below 2^32 |
| Bytes.U32LEOfEncoding | src/utils/GLBLoader.js:92-102 | reading back a written little-endian word gives the word |
| Utf8.Decode | src/utils/GLBLoader.js:145-167 | the decoded text is never longer than the bytes it came from |
| Utf8.DecodeUtf8 | src/utils/GLBLoader.js:145-167 | the loader's loop computes exactly the recursive decoding, under a loop invariant |
| Utf8.AsciiDecodesToItself | src/utils/GLBLoader.js:152-154 | pure-ASCII input decodes to itself |
| Utf8.FourByteSequenceDropped | src/utils/GLBLoader.js:161-163 | a lead byte of 0xF0 or above skips four bytes and emits nothing |
| Utf8.DecodeEncodedUnit | src/utils/GLBLoader.js:152-160 | each one-, two- or three-byte sequence decodes to the code unit it encodes |
| Utf8.DecodeEncode | src/utils/GLBLoader.js:149-164 | decoding the UTF-8 encoding of any code-unit string gives that string back |
| GlbContainer.ReadBinaryChunk | src/utils/GLBLoader.js:122-134 | the binary buffer is null exactly when no bytes follow the JSON chunk or the next chunk type is not BIN; otherwise it is the payload slice, clamped to the buffer end; a partial chunk header fails |
| GlbContainer.ParseGlb | src/utils/GLBLoader.js:87-140 | a bad magic is rejected exactly when the first word is not 0x46546C67; a missing JSON chunk exactly when the type at byte 16 is not 0x4E4F534A; bad JSON exactly when a complete JSON chunk does not parse; success exactly when the frame is complete, the JSON parses and the binary chunk reads; on success the JSON is parsed from bytes [20, 20+length), and the version and length come from bytes 4 and 8 |
| GlbContainer.ParseEncodedGlb | src/utils/GLBLoader.js:87-140 | reading a written container returns its version, length, parsed JSON and binary payload |
| GlbContainer.HeaderLengthUnchecked | src/utils/GLBLoader.js:99-103 | the version and declared length are never checked: buffers differing only there parse to the same document and binary chunk |
| Accessors.ArrayTypeOf | src/utils/GLBLoader.js:652-669 | each known component-type code selects the array kind whose code it is; any other code reads 32-bit floats |
| Accessors.ComponentCount | src/utils/GLBLoader.js:628-647 | between 1 and 16 components; more than one only for a four-letter VECn or MATn name |
| Accessors.ArrayTypeOfCode | src/utils/GLBLoader.js:652-669 | every typed-array kind is recovered from its component-type code, and every unknown code is Float32 |
| Accessors.ComponentCountMatchesShape | src/utils/GLBLoader.js:628-647 | the component count agrees with an independent reading: VECn gives n, MATn gives n×n, anything else 1 |
| Accessors.ResolveAccessor | src/utils/GLBLoader.js:595-612 | fails exactly when the accessor or its buffer view is missing, or the window is misaligned or leaves the buffer; otherwise the window starts at the sum of the two offsets and holds count×components elements of the chosen width; no binary chunk gives an empty window |
| Accessors.ResolveDependsOnlyOnAccessor | src/utils/GLBLoader.js:597-607 | the result depends only on the accessor and its buffer view, so resolving it twice or in another document agrees |
| Accessors.Vec3FloatLength | src/utils/GLBLoader.js:600-607 | a float VEC3 accessor of count N resolves to 3N values and 12N bytes |
| Textures.ImageBytes | src/utils/GLBLoader.js:227-231 | an image's bytes are its buffer view's window, running to the end when there is no length; the call fails exactly when the view is missing or the window leaves the buffer |
| Textures.TextureSlot | src/utils/GLBLoader.js:217-288 | a texture promise yields a texture only with a canvas and a successful decode, tagged with its own index and carrying the bytes of its source image's buffer-view window |
| Textures.ParseTextures | src/utils/GLBLoader.js:205-289 | there is exactly one slot per texture definition, in definition order |
| Textures.SlotPresentIff | src/utils/GLBLoader.js:221-277 | a slot holds a texture exactly when the source image exists and is embedded through an in-bounds buffer view, a canvas exists and the decode succeeds; it then carries the image's MIME type (default image/png) and bytes |
| Textures.SiblingsUnaffected | src/utils/GLBLoader.js:217-288 | replacing one texture or its decode outcome leaves every other slot unchanged |
| Textures.NoCanvasNoTextures | src/utils/GLBLoader.js:249-267 | without a canvas every slot is empty, yet there is still one slot per texture |
| Materials.BoundSlot | src/utils/GLBLoader.js:361-364 | a texture reference binds exactly when its index names a slot that holds a texture |
| Materials.BuildMaterial | src/utils/GLBLoader.js:329-461 | built as the fresh material followed by the loader's updates in order, it ends transparent exactly under BLEND or a base-colour alpha below 1; depthWrite exactly when not BLEND; under MASK alphaTest is the cutoff (default 0.5); opacity is the alpha when below 1; each map is the slot its reference binds, with the normal scale and occlusion strength defaulting to 1 |
| Materials.AlphaModeIndependent | src/utils/GLBLoader.js:424-431 | the alpha mode decides only transparency, depth writing and the alpha test: opacity, every map binding, the normal scale and the occlusion strength are the same whatever the mode |
| Materials.BuildMaterials | src/utils/GLBLoader.js:315-465 | zero declared materials give exactly the default material; otherwise entry i is the material built from document material i |
| Materials.BaseColorMapBinding | src/utils/GLBLoader.js:361-381 | the colour map is bound exactly when the referenced slot holds a texture; an empty slot leaves the material without a map |
| Meshes.ParseGeometry | src/utils/GLBLoader.js:522-590 | the primitive fails as missing POSITION exactly when POSITION is absent; it succeeds exactly when every present attribute and the indices resolve; each attribute is attached exactly when present; normals are recomputed exactly when NORMAL is absent or 0 |
| Meshes.NormalZeroAttachedAndRecomputed | src/utils/GLBLoader.js:540-582 | NORMAL = 0 is both attached and recomputed |
| Meshes.MaterialFor | src/utils/GLBLoader.js:492-493 | the material index is the primitive's own when in range, else 0 |
| Meshes.BuildPrimitives | src/utils/GLBLoader.js:486-506 | the surviving primitives are exactly those whose geometry parses, in order, each with its geometry and material |
| Meshes.BuildGroups | src/utils/GLBLoader.js:480-514 | one group per mesh with a surviving primitive, in mesh order, never empty |
| Meshes.ParseMeshes | src/utils/GLBLoader.js:470-517 | the group list is compacted: its sources are exactly the kept meshes, strictly increasing, and there are at most as many groups as meshes |
| Meshes.PrimitiveSurvivesIff | src/utils/GLBLoader.js:489-505 | a primitive survives exactly when its own geometry parses, whatever its siblings do |
| Meshes.DroppedMeshShiftsIndices | src/utils/GLBLoader.js:509-513 | when mesh 0 is dropped and mesh 1 kept, position 0 of the list holds mesh 1 |
| SceneGraph.ContentOf | src/utils/GLBLoader.js:681-685 | a node's mesh index is a position in the compacted group list; an index with no group fails |
| SceneGraph.MeshIndexAfterDrop | src/utils/GLBLoader.js:681-685 | when mesh 0 is dropped and mesh 1 kept, a node whose mesh index is 0 gets a clone of document mesh 1 |
| SceneGraph.BuildNode | src/utils/GLBLoader.js:674-718 | a built node is faithful all the way down: at every level it has the content of its mesh reference, the transform of its matrix or TRS, and one faithful subtree per child index, in order; an unknown node index fails |
| SceneGraph.BuildChildren | src/utils/GLBLoader.js:710-715 | children are built in document order, one faithful subtree per index |
| SceneGraph.BuildScene | src/utils/GLBLoader.js:189-197 | no scene gives an empty root; otherwise the root has one faithful subtree per node of scene 0, in order |
| SceneGraph.FaithfulIsBuilt | src/utils/GLBLoader.js:674-718 | every faithful tree is what buildNode returns once the depth bound covers its height, so a node with a finite tree is always built as that tree |
| SceneGraph.FaithfulChildrenBuilt | src/utils/GLBLoader.js:710-715 | the same for the children of a faithful tree, from any position on |
| SceneGraph.FaithfulUnique | src/utils/GLBLoader.js:674-718 | a node has at most one faithful tree, so the builder's contract determines its result |
| SceneGraph.OnlyFirstSceneUsed | src/utils/GLBLoader.js:189-190 | scenes after the first have no effect |
| SceneGraph.MatrixTakesPrecedence | src/utils/GLBLoader.js:693-707 | a node with a matrix keeps it, whatever translation, rotation or scale it also has |
| SceneGraph.NodeFuelMonotone | src/utils/GLBLoader.js:674-718 | more recursion depth never changes a tree already built: the bound only turns runaway recursion into RecursionLimit |
| SceneGraph.ChildrenFuelMonotone | src/utils/GLBLoader.js:710-715 | the same for a list of children |
| SceneGraph.SelfCycleNeverBuilds | src/utils/GLBLoader.js:710-715 | a node that is its own first child never yields a tree, at any depth bound |
| GlbLoader.BuildModel | src/utils/GLBLoader.js:172-200 | the textures, materials and meshes are the outputs of the three stages, chained as buildScene chains them; one material per declared material (or one default), no more groups than meshes, every primitive bound to an existing material, every map to a present slot; root child k is the faithful tree of node k of scene 0; the build succeeds exactly when the scene tree does, and always when there is no scene or scene 0 lists no node |
| GlbLoader.PrimitiveMaterialsInRange | src/utils/GLBLoader.js:492-493 | every built primitive's material index is a position in the material list |
| GlbLoader.Load | src/utils/GLBLoader.js:48-57 | a container error fails the load with that error; a valid container loads as exactly the scene built from its parsed JSON and binary chunk, and a successful load came from a valid container |
| GlbLoader.BadMagicRejected | src/utils/GLBLoader.js:95-97 | any buffer whose first word is not "glTF" is rejected before anything is built |
| GlbLoader.LoadEncoded | src/utils/GLBLoader.js:87-140 | loading a written container builds the same model as its document and binary payload handed over directly |
| GlbLoader.NoMaterialsBindDefault | src/utils/GLBLoader.js:319-326 | with no declared material the list is the single default material, and every primitive is bound to it |
| EnvHelper.Coerce | src/common/helper/EnvHelper.ts:24-34 | "true"/"false" become booleans, a non-empty all-digit string the integer its digits denote, "null" null, "undefined" undefined, anything else the string itself |
| EnvHelper.GetEnv | src/common/helper/EnvHelper.ts:8-41 | an absent or unreadable environment gives an empty result; otherwise the key set is kept and each value coerced |
| EnvHelper.EntriesIndependent | src/common/helper/EnvHelper.ts:23-35 | changing one raw value changes only that key's result |
| EnvHelper.CoerceRender | src/common/helper/EnvHelper.ts:24-34 | writing a value and coercing it back gives the value, exactly unless it is a string that looks like a boolean, a number, null or undefined |
| EnvHelper.RenderCoerce | src/common/helper/EnvHelper.ts:26-27 | coercing a text and writing it back gives the text, exactly unless it is a number with leading zeros |
| EnvHelper.LeadingZerosDropped | src/common/helper/EnvHelper.ts:26-27 | "0"+digits coerces to the same value as the digits |
| Decimal.NatToStringOfValue | src/common/helper/EnvHelper.ts:26-27 | a digit string without leading zeros is the printed form of its value |
| Decimal.ValueOfNatToString | src/common/helper/EnvHelper.ts:26-27 | the value of a printed number is the number |
| LocalStorage.ExpiryOf | src/common/helper/localStorageHelper.ts:26-29 | an expiry is recorded exactly when the lifetime is given and non-zero, at now + 1000·seconds |
| LocalStorage.Set | src/common/helper/localStorageHelper.ts:25-35 | the key holds the data with that expiry; every other key is unchanged |
| LocalStorage.Get | src/common/helper/localStorageHelper.ts:43-59 | a missing, empty or unreadable entry gives the default; an expired one gives the default and is removed; a live one gives its data; nothing else changes |
| LocalStorage.Remove | src/common/helper/localStorageHelper.ts:65-71 | exactly the key goes |
| LocalStorage.Clear | src/common/helper/localStorageHelper.ts:76-82 | the store is emptied |
| LocalStorage.Has | src/common/helper/localStorageHelper.ts:89-96 | true exactly when the key is stored with a non-empty text, whatever its expiry |
| LocalStorage.SetThenGet | src/common/helper/localStorageHelper.ts:25-53 | reading a written value up to and including its deadline gives the value; after it, the default, and the key is evicted |
| LocalStorage.GetIdempotent | src/common/helper/localStorageHelper.ts:43-59 | a second read at the same instant gives the same value and store |
| LocalStorage.BlankReadsAsAbsent | src/common/helper/localStorageHelper.ts:43-96 | an empty stored text is reported absent by has and gives the default from get, exactly as a missing key does |
| LocalStorage.HasOutlivesExpiry | src/common/helper/localStorageHelper.ts:89-96 | has reports an expired entry that get treats as gone, and get then evicts it |
| LocalStorage.SetToken | src/common/helper/localStorageHelper.ts:104-106 | the token is stored with a seven-day default lifetime; every other key is unchanged |
| LocalStorage.GetToken | src/common/helper/localStorageHelper.ts:112-114 | a non-null token is read exactly when a live, non-null token entry is stored; the store loses the token only when its entry has expired, and is otherwise unchanged |
| LocalStorage.RemoveToken | src/common/helper/localStorageHelper.ts:119-121 | exactly the token key goes |
| LocalStorage.IsLoggedIn | src/common/helper/localStorageHelper.ts:127-129 | logged in exactly when a live, non-null token is stored |
| LocalStorage.ShapelessTokenLogsIn | src/common/helper/localStorageHelper.ts:43-129 | a live stored token without a data field reads as undefined, and isLoggedIn then reports a session |
| LocalStorage.TokenLastsAWeek | src/common/helper/localStorageHelper.ts:104-129 | a token set with the default lifetime keeps the user logged in up to exactly one week later, and not after |
| LocalStorage.SetUserInfo | src/common/helper/localStorageHelper.ts:137-139 | the user information is stored with a seven-day default lifetime; other keys are unchanged |
| LocalStorage.GetUserInfo | src/common/helper/localStorageHelper.ts:145-147 | non-null user information is read exactly when a live, non-null entry is stored; the store loses that entry only when it has expired, and is otherwise unchanged |
| LocalStorage.RemoveUserInfo | src/common/helper/localStorageHelper.ts:152-154 | exactly the user-info key goes |
| LocalStorage.Logout | src/common/helper/localStorageHelper.ts:159-162 | exactly the token and user-info keys go; everything else is unchanged |
| LocalStorage.LogoutEndsSession | src/common/helper/localStorageHelper.ts:159-162 | after logout the user is not logged in and there is no user information |
| LocalStorage.CacheKeysDistinct | src/common/helper/localStorageHelper.ts:6-13 | the four cache keys differ from each other and from the session keys |
| LocalStorage.SetCache | src/common/helper/localStorageHelper.ts:170-172 | the category and series caches are stored with a one-day default lifetime; other keys are unchanged |
| LocalStorage.GetCache | src/common/helper/localStorageHelper.ts:178-252 | a non-null cache is read exactly when its key holds a live, non-null entry; the store loses that entry only when it has expired, and is otherwise unchanged |
| LocalStorage.RemoveCache | src/common/helper/localStorageHelper.ts:185-259 | exactly that cache's key goes |
| LocalStorage.ClearCategoryCache | src/common/helper/localStorageHelper.ts:264-269 | exactly the four category and series keys go; everything else is unchanged |
| LocalStorage.ClearCacheKeepsSession | src/common/helper/localStorageHelper.ts:264-269 | clearing the caches does not change whether the user is logged in |
| ErrorCodes.CodeText | src/plugin/request/errorCodeHandler.ts:29 | a text code is kept; a non-negative number prints as the digits of its value, a negative one as '-' and the digits of its magnitude |
| ErrorCodes.BranchOf | src/plugin/request/errorCodeHandler.ts:29-88 | the auth arm takes exactly the three auth codes, success exactly "0", and the failure arm exactly the codes no other arm names, ERROR and LOGIN_FILTER among them |
| ErrorCodes.OrElse | src/plugin/request/errorCodeHandler.ts:59-87 | an absent or empty message gives the fallback text, otherwise the message |
| ErrorCodes.HandleCode | src/plugin/request/errorCodeHandler.ts:28-89 | session expiry (token removed, guard set) happens exactly for an auth code with automatic handling and the guard clear; success and suppressed auth codes are silent; every other code shows its message or its own default, SHOW_MESSAGE with no default |
| ErrorCodes.PrintedFailureCodes | src/common/constants/ErrorCodeEnum.ts:6-11 | the failure codes 40000–40006 of the enumeration are the printed forms of their numbers |
| ErrorCodes.PrintedAuthCodes | src/common/constants/ErrorCodeEnum.ts:12-14 | the auth codes 40100–40102 are the printed forms of their numbers |
| ErrorCodes.PrintedOtherCodes | src/common/constants/ErrorCodeEnum.ts:5-16 | SUCCESS and FORBIDDEN are the printed forms of 0 and 40300 |
| ErrorCodes.NumericCodeBranch | src/plugin/request/errorCodeHandler.ts:29 | a numeric code dispatches exactly like its printed text, and agrees with an independent reading on numbers |
| ErrorCodes.LoginFilterIsFailure | src/common/constants/ErrorCodeEnum.ts:15 | LOGIN_FILTER has no arm of its own and shows the generic failure text |
| ErrorCodes.Step | src/plugin/request/errorCodeHandler.ts:40-55 | the navigation-settled event is silent, keeps the store and clears the guard; after a handled response the guard is up exactly when it was or that response redirected |
| ErrorCodes.Run | src/plugin/request/errorCodeHandler.ts:10 | a run of events yields one effect per event |
| ErrorCodes.AtMostOneRedirect | src/plugin/request/errorCodeHandler.ts:40-55 | until the navigation settles there is at most one session-expired redirect, none if one is in progress, and the guard is up exactly when it was or a redirect happened |
| ErrorCodes.GuardReopens | src/plugin/request/errorCodeHandler.ts:50-54 | once the navigation settles, the next auth error redirects again |
| HttpClient.NewClient | src/plugin/request/Axios.ts:31-35 | the base URL defaults to '', a missing or zero timeout to 60000, and the headers to {} |
| HttpClient.EmptyConfigDefaults | src/plugin/request/Axios.ts:31-35 | an empty configuration gives '', 60000 and no headers |
| HttpClient.BaseUrl | src/plugin/request/Axios.ts:41 | a URL starting with "http" is kept; any other is prefixed with the base URL |
| HttpClient.Pairs | src/plugin/request/Axios.ts:44-46 | one enc(key)=enc(value) pair per parameter, in key order |
| HttpClient.BuildUrl | src/plugin/request/Axios.ts:40-51 | no or empty parameters leave the URL unchanged; otherwise the query follows '&' if the URL already has '?', else '?' |
| HttpClient.QueryRoundTrip | src/plugin/request/Axios.ts:43-47 | the built URL splits at '?' into base and query, the query at '&' into the pairs, and each pair at '=' into encoded key and value |
| Text.SplitJoin | src/plugin/request/Axios.ts:46 | splitting a join at its separator gives the parts back when no part contains the separator |
| HttpClient.MergeHeaders | src/plugin/request/Axios.ts:63-71 | per-call headers override defaults, and Authorization is the token exactly when the token is truthy |
| HttpClient.MergeHeadersIdempotent | src/plugin/request/Axios.ts:63-71 | merging the merged headers again, with no per-call headers and the same token, changes nothing |
| HttpClient.PrepareAfterLogout | src/plugin/request/Axios.ts:58-74 | after logout a request's headers are exactly the defaults overridden by the per-call headers, and reading the token evicts nothing |
| HttpClient.Prepare | src/plugin/request/Axios.ts:58-74 | automatic auth handling defaults to true; when a live, truthy token is stored the headers are the defaults overridden by the per-call headers, with Authorization set to the token; otherwise they are exactly that merge; reading the token may evict an expired one |
| HttpClient.ClassifyStatus | src/plugin/request/Axios.ts:86-123 | 401, 403, >=500 and other >=400 are told apart in that order; below 400 passes |
| HttpClient.OnResponse | src/plugin/request/Axios.ts:83-131 | the request rejects exactly for a status of 400 or above; otherwise it resolves with the body, running the handler first exactly when the body says isSuccess is false |
| HttpClient.UnauthorizedEffect | src/plugin/request/Axios.ts:87-95 | status 401 takes the session-expired path exactly when automatic handling is on and no redirect is in progress; otherwise it is silent |
| HttpClient.ForbiddenEffect | src/plugin/request/Axios.ts:96-104 | status 403 rejects with "Forbidden" and shows its fixed text, changing no state |
| HttpClient.ServerErrorEffect | src/plugin/request/Axios.ts:105-113 | a status of 500 or above rejects with "Server Error" and shows its fixed text, changing no state |
| HttpClient.ClientErrorEffect | src/plugin/request/Axios.ts:114-122 | any other status from 400 to 499 rejects with the server's message (or "Request Error") and shows it (or a fixed text), changing no state |
| HttpClient.FailedBodyStillResolves | src/plugin/request/Axios.ts:126-130 | a failed business body under a passing status still resolves with that body, after the handler ran on it |
| HttpClient.FailureMessage | src/plugin/request/Axios.ts:136-143 | "timeout" gives the timeout text; otherwise "fail" gives the connection text; otherwise the generic text |
| HttpClient.OnNetworkFailure | src/plugin/request/Axios.ts:132-153 | a network failure shows a toast with exactly its failure message and leaves the handler state unchanged |
| HttpClient.NetworkFailureToasts | src/plugin/request/Axios.ts:132-153 | a network failure shows exactly its failure message and changes no state |

## Left out

- `downloadFile`, `uni.request`, `uni.uploadFile`, `uni.navigateTo`, `uni.showToast` and the timers: network, UI and timer plumbing. Their outcomes are inputs or events.
- `checkCompatibility`, three.js object construction, `addGeometryAttribute`, `computeVertexNormals` and `Matrix4.decompose`: foreign library calls. A node keeps its matrix or TRS arrays as given.
- Colours, metalness, roughness, emissive factors, texture filtering and wrapping, and the texCoord note: three.js numerics, not decisions.
- Names (`Mesh_i`, `Material_i`, node names): no behaviour depends on them.
- `arrayBufferToBase64`: a foreign call (`wx.arrayBufferToBase64` or `btoa`). A decoded texture records the raw image bytes that would be encoded.
- `JSON.parse` and `JSON.stringify`: the parsed document and the stored values are abstract data, and a stored value is assumed to parse back to itself.
- The concurrency of texture decoding (`Promise.all`): each texture's decode outcome is an input.
- The `get`, `post` and `upload` wrappers of `Axios.ts` (lines 162-251): thin calls into `request` or into `uni.uploadFile`.
- SceneGraph.BuildNode: the stack depth at which JavaScript overflows is unknown. The fuel bound stands for it, and exhausting it is `RecursionLimit`.
- EnvHelper.GetEnv: every value of `import.meta.env` is taken to be a string. Vite's `DEV`, `PROD` and `SSR` are booleans, which no comparison in `getEnv` matches, so they pass through unchanged; the model has no boolean raw values.
- EnvHelper.Coerce: the integer is exact, whereas `parseInt` rounds digit strings above 2^53 to the nearest double.
- ErrorCodes.CodeText: only integer-valued numeric codes below 10^21 are modelled. A fractional or NaN code prints differently, and so does a code of 10^21 or more, which `String` writes in exponent form ("1e+21"). No arm of the switch names such a text, so all of these fall to the failure arm either way.
- LocalStorage.Set: storage failures (`uni.setStorageSync` and the other storage calls throwing), which the helper logs and swallows, are not modelled; every write and removal succeeds.
- LocalStorage.Set: lifetimes are whole seconds.
- LocalStorage.Get: a stored `expire` that is not a number, and a value placed in storage other than as JSON text, are not modelled.
- HttpClient.BuildUrl: parameter values are taken as already converted to strings. The `Object.keys` rule that puts integer-like keys first is not modelled; the parameter list is taken in key order.
- HttpClient.OnResponse: a body that is not an `IBaseResponse` object (for example a bare string) is not modelled. Rejections carry only their message, not the error object.
- HttpClient.OnNetworkFailure: the `reject(err)` that follows the handler call is not returned. A network failure always rejects, with the raw `uni.request` error object, for which the model has no value.
- HttpClient.MergeHeaders: every `Structured` stored token counts as truthy. A stored `0`, `false` or `NaN` would be falsy in `if (token)`; `Value` does not distinguish these.

=== FILE: accessors.dfy ===
/** The accessor resolver (`getAccessorData`, `getComponentCount`, `getArrayType`,
    src/utils/GLBLoader.js), after section 3.6.2 ("Accessors") of the glTF 2.0
    specification.

    `new TypedArray(buffer, offset, length)` is the window: it fails (RangeError) when
    `offset` is not a multiple of the element width or when the window leaves the
    buffer. With no binary chunk the buffer is `null`, and `new TypedArray(null, ...)`
    quietly yields an empty array. The loader ignores `byteStride`. */
module Accessors {
  import opened Results
  import opened Bytes
  import opened GltfDocument

  /** The typed-array constructors `getArrayType` chooses between. */
  datatype ArrayKind = Int8 | Uint8 | Int16 | Uint16 | Uint32 | Float32

  /** Bytes per element (`BYTES_PER_ELEMENT`). */
  function Width(k: ArrayKind): nat {
    match k
    case Int8 => 1
    case Uint8 => 1
    case Int16 => 2
    case Uint16 => 2
    case Uint32 => 4
    case Float32 => 4
  }

  /** `getArrayType`: glTF component type codes, anything else read as 32-bit float. */
  function ArrayTypeOf(componentType: int): (k: ArrayKind)
    ensures KnownComponentType(componentType) ==> ComponentTypeCode(k) == componentType
    ensures !KnownComponentType(componentType) ==> k == Float32
  {
    if componentType == 5120 then Int8
    else if componentType == 5121 then Uint8
    else if componentType == 5122 then Int16
    else if componentType == 5123 then Uint16
    else if componentType == 5125 then Uint32
    else Float32
  }

  /** The glTF component type code of each array kind (the writer's side). */
  function ComponentTypeCode(k: ArrayKind): int {
    match k
    case Int8 => 5120
    case Uint8 => 5121
    case Int16 => 5122
    case Uint16 => 5123
    case Uint32 => 5125
    case Float32 => 5126
  }

  predicate KnownComponentType(c: int) {
    c == 5120 || c == 5121 || c == 5122 || c == 5123 || c == 5125 || c == 5126
  }

  /** Every array kind is recovered from its code, and every unknown code is Float32. */
  lemma ArrayTypeOfCode(k: ArrayKind, c: int)
    ensures ArrayTypeOf(ComponentTypeCode(k)) == k
    ensures !KnownComponentType(c) ==> ArrayTypeOf(c) == Float32
    ensures KnownComponentType(c) <==> exists k' :: ComponentTypeCode(k') == c
  {
    if KnownComponentType(c) {
      var k' := ArrayTypeOf(c);
      assert ComponentTypeCode(k') == c;
    }
  }

  /** `getComponentCount`. */
  function ComponentCount(accessorType: string): (n: nat)
    ensures 1 <= n <= 16
    ensures n > 1 ==> |accessorType| == 4 && (accessorType[0] == 'V' || accessorType[0] == 'M')
  {
    match accessorType
    case "SCALAR" => 1
    case "VEC2" => 2
    case "VEC3" => 3
    case "VEC4" => 4
    case "MAT2" => 4
    case "MAT3" => 9
    case "MAT4" => 16
    case _ => 1
  }

  /** Independent reading of an accessor type: `VECn` has n components, `MATn` has
      n×n, and everything else (SCALAR or an unknown name) one. */
  function ShapeComponents(accessorType: string): nat {
    if |accessorType| == 4 && '2' <= accessorType[3] <= '4' then
      var n := accessorType[3] as int - '0' as int;
      if accessorType[..3] == "VEC" then n
      else if accessorType[..3] == "MAT" then n * n
      else 1
    else 1
  }

  lemma ComponentCountMatchesShape(accessorType: string)
    ensures ComponentCount(accessorType) == ShapeComponents(accessorType)
  {
    if |accessorType| == 4 && '2' <= accessorType[3] <= '4' && accessorType[..3] in {"VEC", "MAT"} {
      var p, d := accessorType[..3], accessorType[3];
      assert accessorType == p + [d];
      var c0, c1, c2 := if p == "VEC" then 'V' else 'M', if p == "VEC" then 'E' else 'A', if p == "VEC" then 'C' else 'T';
      assert p == [c0, c1, c2];
      assert accessorType == [c0, c1, c2, d];
      assert d == '2' || d == '3' || d == '4';
    }
  }

  datatype AccessorError = NoSuchAccessor | NoSuchBufferView | Misaligned | OutOfBounds

  /** A typed-array window: `length` elements of `kind` starting at `byteOffset`. */
  datatype View = View(kind: ArrayKind, byteOffset: nat, length: nat, bytes: seq<byte>)

  predicate WellFormed(v: View) {
    |v.bytes| == v.length * Width(v.kind)
  }

  /** The accessor's buffer view exists. */
  predicate HasView(doc: Document, index: int) {
    && InRange(doc.accessors, index)
    && doc.accessors[index].bufferView.Some?
    && InRange(doc.bufferViews, doc.accessors[index].bufferView.value)
  }

  /** bufferView.byteOffset + accessor.byteOffset. */
  function WindowStart(doc: Document, index: int): nat
    requires HasView(doc, index)
  {
    var a := doc.accessors[index];
    doc.bufferViews[a.bufferView.value].byteOffset + a.byteOffset
  }

  /** count × componentCount. */
  function ElementCount(a: Accessor): nat {
    a.count * ComponentCount(a.accessorType)
  }

  function ResolveAccessor(doc: Document, index: int, bin: Option<seq<byte>>): (r: Result<View, AccessorError>)
    ensures r.Ok? ==> HasView(doc, index) && WellFormed(r.value)
    ensures r.Err? <==>
      || !HasView(doc, index)
      || (bin.Some? &&
          var w := Width(ArrayTypeOf(doc.accessors[index].componentType));
          var start := WindowStart(doc, index);
          start % w != 0 || start + ElementCount(doc.accessors[index]) * w > |bin.value|)
    ensures r.Ok? && bin.None? ==> r.value.length == 0
    ensures r.Ok? && bin.Some? ==>
      var a := doc.accessors[index];
      var start := WindowStart(doc, index);
      && r.value.kind == ArrayTypeOf(a.componentType)
      && r.value.byteOffset == start
      && r.value.length == ElementCount(a)
      && r.value.bytes == bin.value[start .. start + ElementCount(a) * Width(r.value.kind)]
  {
    if !InRange(doc.accessors, index) then Err(NoSuchAccessor)
    else
      var a := doc.accessors[index];
      if a.bufferView.None? || !InRange(doc.bufferViews, a.bufferView.value) then Err(NoSuchBufferView)
      else
        var kind := ArrayTypeOf(a.componentType);
        match bin
        case None => Ok(View(kind, 0, 0, []))
        case Some(buffer) =>
          var start := WindowStart(doc, index);
          var byteLength := ElementCount(a) * Width(kind);
          if start % Width(kind) != 0 then Err(Misaligned)
          else if start + byteLength > |buffer| then Err(OutOfBounds)
          else Ok(View(kind, start, ElementCount(a), buffer[start .. start + byteLength]))
  }

  /** The resolved window depends only on the accessor itself and its buffer view:
      the rest of the document is irrelevant. */
  lemma ResolveDependsOnlyOnAccessor(doc: Document, doc': Document, index: int, bin: Option<seq<byte>>)
    requires InRange(doc.accessors, index) && InRange(doc'.accessors, index)
    requires doc.accessors[index] == doc'.accessors[index]
    requires var bv := doc.accessors[index].bufferView;
      bv.Some? ==>
        && (InRange(doc.bufferViews, bv.value) <==> InRange(doc'.bufferViews, bv.value))
        && (InRange(doc.bufferViews, bv.value) ==> doc.bufferViews[bv.value] == doc'.bufferViews[bv.value])
    ensures ResolveAccessor(doc, index, bin) == ResolveAccessor(doc', index, bin)
  {
  }

  /** A float VEC3 accessor of `count` N resolves to exactly 3N values. */
  lemma Vec3FloatLength(doc: Document, index: int, bin: seq<byte>)
    requires InRange(doc.accessors, index)
    requires doc.accessors[index].accessorType == "VEC3"
    requires doc.accessors[index].componentType == 5126
    requires ResolveAccessor(doc, index, Some(bin)).Ok?
    ensures ResolveAccessor(doc, index, Some(bin)).value.length == 3 * doc.accessors[index].count
    ensures |ResolveAccessor(doc, index, Some(bin)).value.bytes| == 12 * doc.accessors[index].count
  {
  }
}

=== FILE: bytes.dfy ===
/** Bytes and the little-endian 32-bit reads `DataView.getUint32(offset, true)` performs. */
module Bytes {

  type byte = b: int | 0 <= b < 256

  const TWO_32: int := 0x1_0000_0000

  /** Little-endian unsigned 32-bit value of the four bytes at `off`. */
  function U32LE(b: seq<byte>, off: nat): (v: nat)
    requires off + 4 <= |b|
    ensures v < TWO_32
  {
    b[off] as int + 0x100 * b[off + 1] as int + 0x1_0000 * b[off + 2] as int + 0x100_0000 * b[off + 3] as int
  }

  /** The four little-endian bytes of a 32-bit value (the writer's side of `U32LE`). */
  function EncodeU32LE(x: nat): (r: seq<byte>)
    requires x < TWO_32
    ensures |r| == 4
  {
    [x % 0x100, (x / 0x100) % 0x100, (x / 0x1_0000) % 0x100, x / 0x100_0000]
  }

  lemma U32LEOfEncoding(x: nat)
    requires x < TWO_32
    ensures U32LE(EncodeU32LE(x), 0) == x
  {
    var e := EncodeU32LE(x);
    var lo, hi := e[0] as int + 0x100 * e[1] as int, e[2] as int + 0x100 * e[3] as int;
    assert lo == x % 0x1_0000 by {
      assert e[0] as int == x % 0x100 && e[1] as int == (x / 0x100) % 0x100;
    }
    assert hi == x / 0x1_0000 by {
      assert e[2] as int == (x / 0x1_0000) % 0x100 && e[3] as int == x / 0x100_0000;
    }
    assert U32LE(e, 0) == lo + 0x1_0000 * hi;
  }

  /** Reading back a written value, wherever it sits in the buffer. */
  lemma U32LEAt(pre: seq<byte>, x: nat, rest: seq<byte>)
    requires x < TWO_32
    ensures U32LE(pre + EncodeU32LE(x) + rest, |pre|) == x
  {
    var e := pre + EncodeU32LE(x) + rest;
    var n := |pre|;
    assert e[n..n + 4] == EncodeU32LE(x);
    U32LEOfEncoding(x);
    assert U32LE(e, n) == U32LE(EncodeU32LE(x), 0) by {
      var w := EncodeU32LE(x);
      assert e[n] == w[0] && e[n + 1] == w[1] && e[n + 2] == w[2] && e[n + 3] == w[3];
    }
  }

  /** A read only looks at its own four bytes. */
  lemma U32LEFrame(a: seq<byte>, b: seq<byte>, off: nat)
    requires off + 4 <= |a| && off + 4 <= |b|
    requires a[off..off + 4] == b[off..off + 4]
    ensures U32LE(a, off) == U32LE(b, off)
  {
    assert a[off] == a[off..off + 4][0] && b[off] == b[off..off + 4][0];
    assert a[off + 1] == a[off..off + 4][1] && b[off + 1] == b[off..off + 4][1];
    assert a[off + 2] == a[off..off + 4][2] && b[off + 2] == b[off..off + 4][2];
    assert a[off + 3] == a[off..off + 4][3] && b[off + 3] == b[off..off + 4][3];
  }

  /** A read inside a prefix is unaffected by what follows it. */
  lemma U32LEPrefix(h: seq<byte>, tail: seq<byte>, off: nat)
    requires off + 4 <= |h|
    ensures U32LE(h + tail, off) == U32LE(h, off)
  {
    assert (h + tail)[off..off + 4] == h[off..off + 4];
    U32LEFrame(h + tail, h, off);
  }

  /** Slicing a suffix is slicing the whole sequence at shifted positions. */
  lemma SliceOfSuffix<T>(a: seq<T>, k: nat, i: nat, j: nat)
    requires k <= i <= j <= |a|
    ensures a[k..][i - k..j - k] == a[i..j]
  {
  }
}

=== FILE: decimal.dfy ===
/** Decimal digit strings: the value `parseInt` gives an all-digit string, and the
    text `String(n)` gives an integer. */
module Decimal {

  predicate IsDigit(c: char) {
    '0' <= c <= '9'
  }

  /** The regular expression `/^\d+$/`: non-empty, ASCII digits only. */
  predicate IsDigits(s: string) {
    |s| > 0 && forall k :: 0 <= k < |s| ==> IsDigit(s[k])
  }

  function DigitChar(d: nat): (c: char)
    requires d < 10
    ensures IsDigit(c)
  {
    ['0', '1', '2', '3', '4', '5', '6', '7', '8', '9'][d]
  }

  function DigitValue(c: char): (d: nat)
    requires IsDigit(c)
    ensures d < 10
  {
    (c as int - '0' as int) as nat
  }

  /** Value of a digit string read most-significant digit first. */
  function DigitsValue(s: string): nat
    requires forall k :: 0 <= k < |s| ==> IsDigit(s[k])
  {
    if |s| == 0 then 0 else DigitsValue(s[..|s| - 1]) * 10 + DigitValue(s[|s| - 1])
  }

  /** Shortest decimal rendering of a natural number, as `String(n)` prints it. */
  function NatToString(n: nat): (s: string)
    ensures IsDigits(s)
    ensures |s| > 1 ==> s[0] != '0'
  {
    if n < 10 then [DigitChar(n)] else NatToString(n / 10) + [DigitChar(n % 10)]
  }

  /** `String(i)` for an integer-valued number (a leading '-' when negative). */
  function IntToString(i: int): string
  {
    if i < 0 then "-" + NatToString(-i) else NatToString(i)
  }

  lemma DigitRoundTrip(d: nat)
    requires d < 10
    ensures DigitValue(DigitChar(d)) == d
  {
  }

  /** Reading back a rendered number gives the number. */
  lemma {:induction false} ValueOfNatToString(n: nat)
    ensures DigitsValue(NatToString(n)) == n
  {
    DigitRoundTrip(n % 10);
    if n >= 10 {
      ValueOfNatToString(n / 10);
      var s := NatToString(n);
      assert s[..|s| - 1] == NatToString(n / 10);
    }
  }

  /** A leading zero does not change the value: "007" reads as 7. */
  lemma {:induction false} LeadingZeroIgnored(s: string)
    requires forall k :: 0 <= k < |s| ==> IsDigit(s[k])
    ensures DigitsValue("0" + s) == DigitsValue(s)
  {
    if |s| > 0 {
      var t := "0" + s;
      assert t[..|t| - 1] == "0" + s[..|s| - 1];
      LeadingZeroIgnored(s[..|s| - 1]);
    }
  }

  /** Rendering is injective, so distinct codes print differently. */
  lemma NatToStringInjective(m: nat, n: nat)
    requires NatToString(m) == NatToString(n)
    ensures m == n
  {
    ValueOfNatToString(m);
    ValueOfNatToString(n);
  }

  lemma CharRoundTrip(c: char)
    requires IsDigit(c)
    ensures DigitChar(DigitValue(c)) == c
  {
  }

  /** A digit string is at least its leading digit's value. */
  lemma {:induction false} ValueAtLeastLead(s: string)
    requires IsDigits(s)
    ensures DigitsValue(s) >= DigitValue(s[0])
  {
    if |s| > 1 {
      ValueAtLeastLead(s[..|s| - 1]);
    }
  }

  /** Rendering a digit string's value gives the string back when it has no leading
      zero (the single digit "0" included). */
  lemma {:induction false} NatToStringOfValue(s: string)
    requires IsDigits(s) && (|s| > 1 ==> s[0] != '0')
    ensures NatToString(DigitsValue(s)) == s
  {
    var last := s[|s| - 1];
    CharRoundTrip(last);
    if |s| == 1 {
      assert s == [last];
    } else {
      var init := s[..|s| - 1];
      ValueAtLeastLead(init);
      NatToStringOfValue(init);
      var n := DigitsValue(s);
      assert n / 10 == DigitsValue(init) && n % 10 == DigitValue(last);
      assert s == init + [last];
    }
  }
}

=== FILE: env_helper.dfy ===
/** Environment-variable coercion (`getEnv` and the constructor,
    src/common/helper/EnvHelper.ts).

    The raw environment is `import.meta.env`, taken with every value a string. `None` stands for
    an environment that is absent or whose reading throws; both leave the result
    empty. Each value is coerced on its own, in the order `getEnv` tests it. */
module EnvHelper {
  import opened Results
  import opened Decimal

  datatype EnvValue =
    | BoolValue(b: bool)
    | IntValue(n: nat)
    | NullValue
    | UndefinedValue
    | StringValue(s: string)

  /** One value of the environment. */
  function Coerce(raw: string): (v: EnvValue)
    ensures v.BoolValue? <==> raw == "true" || raw == "false"
    ensures v.BoolValue? ==> (v.b <==> raw == "true")
    ensures v.IntValue? <==> IsDigits(raw)
    ensures v.IntValue? ==> v.n == DigitsValue(raw)
    ensures v.NullValue? <==> raw == "null"
    ensures v.UndefinedValue? <==> raw == "undefined"
    ensures v.StringValue? ==> v.s == raw
  {
    if raw == "true" || raw == "false" then
      assert !IsDigit(raw[0]);
      BoolValue(raw == "true")
    else if IsDigits(raw) then IntValue(DigitsValue(raw))
    else if raw == "null" then NullValue
    else if raw == "undefined" then UndefinedValue
    else StringValue(raw)
  }

  /** `getEnv()`, and the constructor that falls back to `{}` should it throw. */
  function GetEnv(env: Option<map<string, string>>): (r: map<string, EnvValue>)
    ensures env.None? ==> r == map[]
    ensures env.Some? ==> r.Keys == env.value.Keys
    ensures env.Some? ==> forall k :: k in r ==> r[k] == Coerce(env.value[k])
  {
    match env
    case None => map[]
    case Some(e) => map k | k in e :: Coerce(e[k])
  }

  /** Each key is transformed independently: changing one raw value changes only that
      key's coerced value. */
  lemma EntriesIndependent(e: map<string, string>, k: string, raw: string)
    ensures GetEnv(Some(e[k := raw])) == GetEnv(Some(e))[k := Coerce(raw)]
  {
  }

  // -- The writer's side: the text that yields a value -------------------------

  /** The `.env` text of a value. */
  function Render(v: EnvValue): string {
    match v
    case BoolValue(b) => if b then "true" else "false"
    case IntValue(n) => NatToString(n)
    case NullValue => "null"
    case UndefinedValue => "undefined"
    case StringValue(s) => s
  }

  /** Texts that never survive as strings. */
  predicate Reserved(s: string) {
    s == "true" || s == "false" || s == "null" || s == "undefined" || IsDigits(s)
  }

  /** Writing a value and reading it back gives the value, except for a string that
      looks like a boolean, a number, `null` or `undefined`. */
  lemma CoerceRender(v: EnvValue)
    ensures Coerce(Render(v)) == v <==> !(v.StringValue? && Reserved(v.s))
  {
    if v.IntValue? {
      ValueOfNatToString(v.n);
      var s := NatToString(v.n);
      assert IsDigit(s[0]);
    }
  }

  /** Reading a text and writing it back gives the text, except for a number written
      with leading zeros: "007" comes back as "7". */
  lemma RenderCoerce(raw: string)
    ensures Render(Coerce(raw)) == raw <==> !(IsDigits(raw) && |raw| > 1 && raw[0] == '0')
  {
    if IsDigits(raw) && !(raw == "true" || raw == "false") {
      if |raw| > 1 && raw[0] == '0' {
        var back := NatToString(DigitsValue(raw));
        assert |back| > 1 ==> back[0] != '0';
      } else {
        NatToStringOfValue(raw);
      }
    }
  }

  /** Leading zeros are dropped: "007" and "7" give the same value. */
  lemma LeadingZerosDropped(s: string)
    requires IsDigits(s)
    ensures Coerce("0" + s) == Coerce(s)
  {
    LeadingZeroIgnored(s);
    var t := "0" + s;
    assert IsDigits(t) by {
      assert forall k :: 1 <= k < |t| ==> t[k] == s[k - 1];
    }
    assert IsDigit(t[0]) && IsDigit(s[0]);
  }
}

=== FILE: error_codes.dfy ===
/** Business error-code dispatch (`handlerCodeError`,
    src/plugin/request/errorCodeHandler.ts, over the codes of
    src/common/constants/ErrorCodeEnum.ts).

    The module-level flag `isHandlingAuthError` and the token store are the handler's
    state. An auth error that gets through the guard sets the flag, removes the token
    and schedules navigation to the login page; the flag is cleared by a timer after
    that navigation settles, which is the explicit `NavigationSettled` event here. The
    toast and the navigation themselves are effects, not modelled further. */
module ErrorCodes {
  import opened Results
  import opened Decimal
  import opened LocalStorage

  const SUCCESS: string := "0"
  const ERROR: string := "40000"
  const PARAM_EMPTY: string := "40001"
  const SHOW_MESSAGE: string := "40002"
  const DATA_DUPLICATE: string := "40003"
  const METHOD_NOT_ALLOWED: string := "40005"
  const FILE_TYPE_NOT_SUPPORTED: string := "40006"
  const UNAUTHORIZED: string := "40100"
  const TOKEN_EXPIRED: string := "40101"
  const TOKEN_INVALID: string := "40102"
  const LOGIN_FILTER: string := "40103"
  const FORBIDDEN: string := "40300"

  const SESSION_EXPIRED_MESSAGE: string := "登录失效，请重新登录"

  /** `res.code`: the declared type is a number, but servers send strings too. */
  datatype Code = NumericCode(n: int) | TextCode(s: string)

  /** `String(res.code)`, for integer-valued numbers. */
  function CodeText(c: Code): (r: string)
    ensures c.TextCode? ==> r == c.s
    ensures c.NumericCode? ==> (IsDigits(r) <==> c.n >= 0)
    ensures c.NumericCode? && c.n >= 0 ==> DigitsValue(r) == c.n
    ensures c.NumericCode? && c.n < 0 ==> |r| > 1 && r[0] == '-' && IsDigits(r[1..]) && DigitsValue(r[1..]) == -c.n
  {
    match c
    case NumericCode(n) =>
      if n >= 0 then ValueOfNatToString(n); IntToString(n)
      else
        var digits := NatToString(-n);
        ValueOfNatToString(-n);
        assert ("-" + digits)[1..] == digits;
        assert !IsDigit(("-" + digits)[0]);
        IntToString(n)
    case TextCode(s) => s
  }

  datatype Response = Response(code: Code, message: Option<string>)

  /** The `switch` arms. `Failure` is both `ERROR` and `default`. */
  datatype Branch =
    | Success | Auth | ParamEmpty | ShowMessage | DataDuplicate
    | MethodNotAllowed | FileTypeNotSupported | Forbidden | Failure

  function BranchOf(code: string): (b: Branch)
    ensures b == Auth <==> code in {UNAUTHORIZED, TOKEN_EXPIRED, TOKEN_INVALID}
    ensures b == Failure <==>
      code !in {SUCCESS, UNAUTHORIZED, TOKEN_EXPIRED, TOKEN_INVALID, PARAM_EMPTY, SHOW_MESSAGE,
                DATA_DUPLICATE, METHOD_NOT_ALLOWED, FILE_TYPE_NOT_SUPPORTED, FORBIDDEN}
    ensures b == Success <==> code == SUCCESS
  {
    if code == SUCCESS then Success
    else if code == UNAUTHORIZED || code == TOKEN_EXPIRED || code == TOKEN_INVALID then Auth
    else if code == PARAM_EMPTY then ParamEmpty
    else if code == SHOW_MESSAGE then ShowMessage
    else if code == DATA_DUPLICATE then DataDuplicate
    else if code == METHOD_NOT_ALLOWED then MethodNotAllowed
    else if code == FILE_TYPE_NOT_SUPPORTED then FileTypeNotSupported
    else if code == FORBIDDEN then Forbidden
    else Failure
  }

  /** The fallback toast text of each message-showing arm. `SHOW_MESSAGE` has none. */
  function DefaultMessage(b: Branch): Option<string> {
    match b
    case ParamEmpty => Some("参数校验错误")
    case DataDuplicate => Some("数据重复")
    case MethodNotAllowed => Some("请求方法不支持")
    case FileTypeNotSupported => Some("文件类型不支持")
    case Forbidden => Some("没有权限执行该操作")
    case Failure => Some("操作失败")
    case _ => None
  }

  /** `message || fallback`: an absent or empty message gives the fallback. */
  function OrElse(message: Option<string>, fallback: string): (r: string)
    ensures r == fallback || (message.Some? && r == message.value)
    ensures r == fallback <==> message.None? || message.value == "" || message.value == fallback
  {
    if message.Some? && message.value != "" then message.value else fallback
  }

  /** What one call does besides changing state. */
  datatype Effect =
    | Silent
    | Toast(title: Option<string>)
    /** The session-expired toast, the token removal and the scheduled navigation. */
    | SessionExpired

  datatype Handler = Handler(handlingAuth: bool, store: Store)

  /** `handlerCodeError(res, autoHandleAuth)`. */
  function HandleCode(h: Handler, res: Response, autoHandleAuth: bool): (r: (Effect, Handler))
    ensures var b := BranchOf(CodeText(res.code));
      && (r.0 == SessionExpired <==> b == Auth && autoHandleAuth && !h.handlingAuth)
      && (r.0 == Silent <==> b == Success || (b == Auth && !(autoHandleAuth && !h.handlingAuth)))
      && (r.0.Toast? <==> b != Success && b != Auth)
      && (r.0.Toast? && b != ShowMessage ==> r.0.title == Some(OrElse(res.message, DefaultMessage(b).value)))
      && (r.0.Toast? && b == ShowMessage ==> r.0.title == res.message)
    ensures r.1.handlingAuth <==> h.handlingAuth || r.0 == SessionExpired
    ensures r.1.store == if r.0 == SessionExpired then RemoveToken(h.store) else h.store
  {
    var b := BranchOf(CodeText(res.code));
    match b
    case Success => (Silent, h)
    case Auth =>
      if !autoHandleAuth || h.handlingAuth then (Silent, h)
      else (SessionExpired, Handler(true, RemoveToken(h.store)))
    case ShowMessage => (Toast(res.message), h)
    case _ => (Toast(Some(OrElse(res.message, DefaultMessage(b).value))), h)
  }

  // -- Numeric and textual codes --------------------------------------------

  /** An independent reading of the dispatch on numeric codes. */
  function NumericBranch(n: int): Branch {
    if n == 0 then Success
    else if 40100 <= n <= 40102 then Auth
    else if n == 40001 then ParamEmpty
    else if n == 40002 then ShowMessage
    else if n == 40003 then DataDuplicate
    else if n == 40005 then MethodNotAllowed
    else if n == 40006 then FileTypeNotSupported
    else if n == 40300 then Forbidden
    else Failure
  }

  /** Printing `10p + d` appends the digit `d` to the printing of `p`. */
  lemma AppendDigit(p: nat, d: nat)
    requires 0 < p && d < 10
    ensures NatToString(10 * p + d) == NatToString(p) + [DigitChar(d)]
  {
    assert (10 * p + d) / 10 == p && (10 * p + d) % 10 == d;
  }

  /** "4000", "4010" and "4030", the prefixes of the five-digit codes. */
  lemma PrintedPrefixes()
    ensures NatToString(4000) == "4000" && NatToString(4010) == "4010" && NatToString(4030) == "4030"
  {
    AppendDigit(4, 0);
    AppendDigit(40, 0);
    AppendDigit(400, 0);
    AppendDigit(40, 1);
    AppendDigit(401, 0);
    AppendDigit(40, 3);
    AppendDigit(403, 0);
  }

  /** A five-digit code prints as its prefix followed by its last digit. */
  lemma PrintedCode(p: nat, d: nat, text: string)
    requires p == 4000 || p == 4010 || p == 4030
    requires d < 10 && |text| == 5 && text[4] == DigitChar(d)
    requires text[..4] == (if p == 4000 then "4000" else if p == 4010 then "4010" else "4030")
    ensures NatToString(10 * p + d) == text
  {
    var prefix := text[..4];
    assert NatToString(p) == prefix by {
      PrintedPrefixes();
    }
    assert text == prefix + [DigitChar(d)] by {
      assert text == text[..4] + [text[4]];
    }
    AppendDigit(p, d);
  }

  /** The general failure codes print as their numbers. */
  lemma PrintedFailureCodes()
    ensures NatToString(40000) == ERROR && NatToString(40001) == PARAM_EMPTY
    ensures NatToString(40002) == SHOW_MESSAGE && NatToString(40003) == DATA_DUPLICATE
    ensures NatToString(40005) == METHOD_NOT_ALLOWED && NatToString(40006) == FILE_TYPE_NOT_SUPPORTED
  {
    PrintedCode(4000, 0, ERROR);
    PrintedCode(4000, 1, PARAM_EMPTY);
    PrintedCode(4000, 2, SHOW_MESSAGE);
    PrintedCode(4000, 3, DATA_DUPLICATE);
    PrintedCode(4000, 5, METHOD_NOT_ALLOWED);
    PrintedCode(4000, 6, FILE_TYPE_NOT_SUPPORTED);
  }

  /** The number 40000 takes the failure arm: it prints as `ERROR`. */
  lemma NumericErrorIsFailure()
    ensures BranchOf(CodeText(NumericCode(40000))) == Failure
  {
    PrintedCode(4000, 0, ERROR);
  }

  /** The auth codes print as their numbers. */
  lemma PrintedAuthCodes()
    ensures NatToString(40100) == UNAUTHORIZED && NatToString(40101) == TOKEN_EXPIRED
    ensures NatToString(40102) == TOKEN_INVALID
  {
    PrintedCode(4010, 0, UNAUTHORIZED);
    PrintedCode(4010, 1, TOKEN_EXPIRED);
    PrintedCode(4010, 2, TOKEN_INVALID);
  }

  /** `SUCCESS` and `FORBIDDEN` print as their numbers. */
  lemma PrintedOtherCodes()
    ensures NatToString(0) == SUCCESS && NatToString(40300) == FORBIDDEN
  {
    PrintedCode(4030, 0, FORBIDDEN);
  }

  /** A number prints as the text of `v` exactly when it is `v`. */
  lemma PrintsAs(n: int, v: nat, text: string)
    requires NatToString(v) == text
    ensures IntToString(n) == text <==> n == v
  {
    if IntToString(n) == text && n >= 0 {
      NatToStringInjective(n, v);
    }
  }

  /** `String(res.code)` makes the number 40100 and the text "40100" dispatch alike:
      the switch on printed codes agrees with the numeric reading. */
  lemma NumericCodeBranch(n: int)
    ensures BranchOf(CodeText(NumericCode(n))) == NumericBranch(n)
  {
    PrintedFailureCodes();
    PrintedAuthCodes();
    PrintedOtherCodes();
    PrintsAs(n, 0, SUCCESS);
    PrintsAs(n, 40001, PARAM_EMPTY);
    PrintsAs(n, 40002, SHOW_MESSAGE);
    PrintsAs(n, 40003, DATA_DUPLICATE);
    PrintsAs(n, 40005, METHOD_NOT_ALLOWED);
    PrintsAs(n, 40006, FILE_TYPE_NOT_SUPPORTED);
    PrintsAs(n, 40100, UNAUTHORIZED);
    PrintsAs(n, 40101, TOKEN_EXPIRED);
    PrintsAs(n, 40102, TOKEN_INVALID);
    PrintsAs(n, 40300, FORBIDDEN);
  }

  /** `LOGIN_FILTER` (40103) has no arm of its own and is handled as a failure. */
  lemma LoginFilterIsFailure(h: Handler, message: Option<string>, autoHandleAuth: bool)
    ensures HandleCode(h, Response(TextCode(LOGIN_FILTER), message), autoHandleAuth)
         == (Toast(Some(OrElse(message, "操作失败"))), h)
  {
  }

  // -- The auth-error guard over a run of events ------------------------------

  datatype Event = Handle(res: Response, autoHandleAuth: bool) | NavigationSettled

  function Step(h: Handler, e: Event): (r: (Effect, Handler))
    ensures e.NavigationSettled? ==> r.0 == Silent && !r.1.handlingAuth && r.1.store == h.store
    ensures r.1.handlingAuth <==> e.Handle? && (h.handlingAuth || r.0 == SessionExpired)
  {
    match e
    case Handle(res, auto) => HandleCode(h, res, auto)
    case NavigationSettled => (Silent, h.(handlingAuth := false))
  }

  datatype Trace = Trace(effects: seq<Effect>, final: Handler)

  function Run(h: Handler, events: seq<Event>): (t: Trace)
    ensures |t.effects| == |events|
    decreases |events|
  {
    if |events| == 0 then Trace([], h)
    else
      var (effect, h') := Step(h, events[0]);
      var rest := Run(h', events[1..]);
      Trace([effect] + rest.effects, rest.final)
  }

  function Redirects(effects: seq<Effect>): nat {
    if |effects| == 0 then 0
    else (if effects[0] == SessionExpired then 1 else 0) + Redirects(effects[1..])
  }

  /** Between two navigations settling there is at most one session-expired redirect,
      none at all if one is already in progress, and the guard is up at the end
      exactly when it was up at the start or a redirect happened. */
  lemma {:induction false} AtMostOneRedirect(h: Handler, events: seq<Event>)
    requires forall k :: 0 <= k < |events| ==> events[k].Handle?
    ensures var t := Run(h, events);
      && Redirects(t.effects) <= (if h.handlingAuth then 0 else 1)
      && (t.final.handlingAuth <==> h.handlingAuth || Redirects(t.effects) > 0)
    decreases |events|
  {
    if |events| > 0 {
      var (effect, h') := Step(h, events[0]);
      AtMostOneRedirect(h', events[1..]);
      var t := Run(h, events);
      assert t.effects[1..] == Run(h', events[1..]).effects;
    }
  }

  /** After the navigation settles the next auth error redirects again. */
  lemma GuardReopens(h: Handler, res: Response)
    requires BranchOf(CodeText(res.code)) == Auth
    ensures Run(h, [NavigationSettled, Handle(res, true)]).effects == [Silent, SessionExpired]
  {
    var h' := h.(handlingAuth := false);
    assert Run(h, [NavigationSettled, Handle(res, true)]).effects
        == [Silent] + Run(h', [Handle(res, true)]).effects;
  }
}

=== FILE: glb_container.dfy ===
/** The GLB container reader (`parseGLB`, src/utils/GLBLoader.js), after chapter 4
    ("GLB File Format Specification") of the Khronos glTF 2.0 specification.

    Layout: a 12-byte header (magic, version, total length), then a chunk header
    (length, type) for the JSON chunk at byte 12, its payload from byte 20, and an
    optional binary chunk right after it. All integers are little-endian uint32.

    The JSON parser is a parameter (`parseJson`): it answers `None` where `JSON.parse`
    throws. A read past the end of the buffer (`DataView.getUint32` or the
    `Uint8Array` constructor raising RangeError) is the `Truncated` error. */
module GlbContainer {
  import opened Results
  import opened Bytes
  import Utf8

  /** "glTF" read as a little-endian uint32. */
  const GLB_MAGIC: nat := 0x46546C67
  /** "JSON" read as a little-endian uint32. */
  const CHUNK_JSON: nat := 0x4E4F534A
  /** "BIN\0" read as a little-endian uint32. */
  const CHUNK_BIN: nat := 0x004E4942
  /** 12-byte header plus the JSON chunk's 8-byte header. */
  const JSON_PAYLOAD_START: nat := 20

  datatype GlbError = Truncated | BadMagic | MissingJsonChunk | BadJson

  /** The parsed container: the JSON and binary chunk that `parseGLB` returns, plus the
      version and declared length it reads from the header and then drops unchecked. */
  datatype Glb<D> = Glb(version: nat, declaredLength: nat, json: D, binary: Option<seq<byte>>)

  function Min(a: int, b: int): int {
    if a <= b then a else b
  }

  /** Offset one past the JSON payload: 20 + the JSON chunk's declared length. */
  function JsonEnd(buf: seq<byte>): nat
    requires |buf| >= JSON_PAYLOAD_START
  {
    JSON_PAYLOAD_START + U32LE(buf, 12)
  }

  /** The optional binary chunk whose header starts at `off`. `ArrayBuffer.slice`
      clamps its end to the buffer, so a chunk that claims too many bytes is cut short. */
  function ReadBinaryChunk(buf: seq<byte>, off: nat): (r: Result<Option<seq<byte>>, GlbError>)
    requires off <= |buf|
    ensures r.Err? <==> off < |buf| < off + 8
    ensures r.Ok? && r.value.Some? <==> off + 8 <= |buf| && U32LE(buf, off + 4) == CHUNK_BIN
    ensures r.Ok? && r.value.Some? ==>
      r.value.value == buf[off + 8 .. Min(off + 8 + U32LE(buf, off), |buf|)]
  {
    if off == |buf| then Ok(None)
    else if off + 8 > |buf| then Err(Truncated)
    else if U32LE(buf, off + 4) != CHUNK_BIN then Ok(None)
    else Ok(Some(buf[off + 8 .. Min(off + 8 + U32LE(buf, off), |buf|)]))
  }

  function ParseGlb<D>(buf: seq<byte>, parseJson: seq<Utf8.CodeUnit> -> Option<D>): (r: Result<Glb<D>, GlbError>)
    ensures r == Err(BadMagic) <==> |buf| >= 4 && U32LE(buf, 0) != GLB_MAGIC
    ensures r == Err(MissingJsonChunk) <==>
      |buf| >= JSON_PAYLOAD_START && U32LE(buf, 0) == GLB_MAGIC && U32LE(buf, 16) != CHUNK_JSON
    ensures r.Ok? ==>
      && |buf| >= JSON_PAYLOAD_START
      && U32LE(buf, 0) == GLB_MAGIC
      && U32LE(buf, 16) == CHUNK_JSON
      && JsonEnd(buf) <= |buf|
      && parseJson(Utf8.Decode(buf[JSON_PAYLOAD_START..JsonEnd(buf)])) == Some(r.value.json)
      && r.value.version == U32LE(buf, 4)
      && r.value.declaredLength == U32LE(buf, 8)
      && Ok(r.value.binary) == ReadBinaryChunk(buf, JsonEnd(buf))
    ensures r == Err(BadJson) <==>
      && |buf| >= JSON_PAYLOAD_START
      && U32LE(buf, 0) == GLB_MAGIC
      && U32LE(buf, 16) == CHUNK_JSON
      && JsonEnd(buf) <= |buf|
      && parseJson(Utf8.Decode(buf[JSON_PAYLOAD_START..JsonEnd(buf)])).None?
    ensures r.Ok? <==>
      && |buf| >= JSON_PAYLOAD_START
      && U32LE(buf, 0) == GLB_MAGIC
      && U32LE(buf, 16) == CHUNK_JSON
      && JsonEnd(buf) <= |buf|
      && parseJson(Utf8.Decode(buf[JSON_PAYLOAD_START..JsonEnd(buf)])).Some?
      && ReadBinaryChunk(buf, JsonEnd(buf)).Ok?
  {
    if |buf| < 4 then Err(Truncated)
    else if U32LE(buf, 0) != GLB_MAGIC then Err(BadMagic)
    else if |buf| < JSON_PAYLOAD_START then Err(Truncated)
    else if U32LE(buf, 16) != CHUNK_JSON then Err(MissingJsonChunk)
    else if JsonEnd(buf) > |buf| then Err(Truncated)
    else
      match parseJson(Utf8.Decode(buf[JSON_PAYLOAD_START..JsonEnd(buf)]))
      case None => Err(BadJson)
      case Some(doc) =>
        var binary :- ReadBinaryChunk(buf, JsonEnd(buf));
        Ok(Glb(U32LE(buf, 4), U32LE(buf, 8), doc, binary))
  }

  // ---------------------------------------------------------------------------
  // The writer's side, used to state the reader's round trip.

  function BinaryChunk(bin: Option<seq<byte>>): seq<byte>
    requires bin.Some? ==> |bin.value| < TWO_32
  {
    match bin
    case None => []
    case Some(b) => EncodeU32LE(|b|) + EncodeU32LE(CHUNK_BIN) + b
  }

  function TotalLength(json: seq<byte>, bin: Option<seq<byte>>): nat {
    JSON_PAYLOAD_START + |json| + (if bin.Some? then 8 + |bin.value| else 0)
  }

  predicate Encodable(version: nat, json: seq<byte>, bin: Option<seq<byte>>) {
    version < TWO_32 && TotalLength(json, bin) < TWO_32
  }

  /** The 12-byte file header followed by the JSON chunk's 8-byte header. */
  function Header(version: nat, total: nat, jsonLength: nat): (h: seq<byte>)
    requires version < TWO_32 && total < TWO_32 && jsonLength < TWO_32
    ensures |h| == JSON_PAYLOAD_START
  {
    EncodeU32LE(GLB_MAGIC) + EncodeU32LE(version) + EncodeU32LE(total)
      + EncodeU32LE(jsonLength) + EncodeU32LE(CHUNK_JSON)
  }

  /** A GLB file with the given JSON payload and optional binary payload. */
  function EncodeGlb(version: nat, json: seq<byte>, bin: Option<seq<byte>>): (r: seq<byte>)
    requires Encodable(version, json, bin)
    ensures |r| == TotalLength(json, bin)
  {
    Header(version, TotalLength(json, bin), |json|) + json + BinaryChunk(bin)
  }

  lemma HeaderFields(version: nat, total: nat, jsonLength: nat)
    requires version < TWO_32 && total < TWO_32 && jsonLength < TWO_32
    ensures var h := Header(version, total, jsonLength);
      && U32LE(h, 0) == GLB_MAGIC && U32LE(h, 4) == version && U32LE(h, 8) == total
      && U32LE(h, 12) == jsonLength && U32LE(h, 16) == CHUNK_JSON
  {
    var h0, h1, h2, h3, h4 := EncodeU32LE(GLB_MAGIC), EncodeU32LE(version), EncodeU32LE(total),
      EncodeU32LE(jsonLength), EncodeU32LE(CHUNK_JSON);
    var h := Header(version, total, jsonLength);
    assert h == [] + h0 + (h1 + h2 + h3 + h4);
    U32LEAt([], GLB_MAGIC, h1 + h2 + h3 + h4);
    assert h == h0 + h1 + (h2 + h3 + h4);
    U32LEAt(h0, version, h2 + h3 + h4);
    assert h == (h0 + h1) + h2 + (h3 + h4);
    U32LEAt(h0 + h1, total, h3 + h4);
    assert h == (h0 + h1 + h2) + h3 + h4;
    U32LEAt(h0 + h1 + h2, jsonLength, h4);
    assert h == (h0 + h1 + h2 + h3) + h4 + [];
    U32LEAt(h0 + h1 + h2 + h3, CHUNK_JSON, []);
  }

  /** The two header words of a written binary chunk. */
  lemma ChunkHeaderWords(pre: seq<byte>, b: seq<byte>)
    requires |b| < TWO_32
    ensures var buf := pre + EncodeU32LE(|b|) + EncodeU32LE(CHUNK_BIN) + b;
      U32LE(buf, |pre|) == |b| && U32LE(buf, |pre| + 4) == CHUNK_BIN
  {
    var w0, w1 := EncodeU32LE(|b|), EncodeU32LE(CHUNK_BIN);
    var buf := pre + w0 + w1 + b;
    assert buf == pre + w0 + (w1 + b);
    U32LEAt(pre, |b|, w1 + b);
    assert buf == (pre + w0) + w1 + b;
    U32LEAt(pre + w0, CHUNK_BIN, b);
  }

  /** A written binary chunk reads back as its payload. */
  lemma ReadEncodedChunk(pre: seq<byte>, b: seq<byte>)
    requires |b| < TWO_32
    ensures ReadBinaryChunk(pre + BinaryChunk(Some(b)), |pre|) == Ok(Some(b))
  {
    var buf := pre + BinaryChunk(Some(b));
    assert buf == pre + EncodeU32LE(|b|) + EncodeU32LE(CHUNK_BIN) + b;
    ChunkHeaderWords(pre, b);
    assert |buf| == |pre| + 8 + |b|;
    assert buf[|pre| + 8..|buf|] == b;
  }

  lemma ReadEncodedBinary(pre: seq<byte>, bin: Option<seq<byte>>)
    requires bin.Some? ==> |bin.value| < TWO_32
    ensures ReadBinaryChunk(pre + BinaryChunk(bin), |pre|) == Ok(bin)
  {
    if bin.Some? {
      ReadEncodedChunk(pre, bin.value);
    } else {
      assert pre + BinaryChunk(bin) == pre;
    }
  }

  /** Round trip: reading a written container gives back the version, the declared
      length, the parsed JSON payload and the binary payload. */
  lemma ParseEncodedGlb<D>(version: nat, json: seq<byte>, bin: Option<seq<byte>>,
                           parseJson: seq<Utf8.CodeUnit> -> Option<D>)
    requires Encodable(version, json, bin)
    ensures var r := ParseGlb(EncodeGlb(version, json, bin), parseJson);
      match parseJson(Utf8.Decode(json))
      case None => r == Err(BadJson)
      case Some(doc) => r == Ok(Glb(version, TotalLength(json, bin), doc, bin))
  {
    var total := TotalLength(json, bin);
    var h := Header(version, total, |json|);
    var tail := json + BinaryChunk(bin);
    var buf := EncodeGlb(version, json, bin);
    assert buf == h + tail;
    HeaderFields(version, total, |json|);
    U32LEPrefix(h, tail, 0);
    U32LEPrefix(h, tail, 4);
    U32LEPrefix(h, tail, 8);
    U32LEPrefix(h, tail, 12);
    U32LEPrefix(h, tail, 16);
    assert JsonEnd(buf) == JSON_PAYLOAD_START + |json|;
    assert buf[JSON_PAYLOAD_START..JsonEnd(buf)] == json;
    ReadEncodedBinary(h + json, bin);
  }

  /** A word outside bytes 4..12 reads the same in two buffers that agree there. */
  lemma WordAgrees(buf: seq<byte>, buf': seq<byte>, k: nat)
    requires |buf| == |buf'| && |buf| >= 12
    requires buf[..4] == buf'[..4] && buf[12..] == buf'[12..]
    requires k + 4 <= |buf| && (k == 0 || k >= 12)
    ensures U32LE(buf, k) == U32LE(buf', k)
  {
    if k == 0 {
      assert buf[..4] == buf[0..4] && buf'[..4] == buf'[0..4];
    } else {
      SliceOfSuffix(buf, 12, k, k + 4);
      SliceOfSuffix(buf', 12, k, k + 4);
    }
    U32LEFrame(buf, buf', k);
  }

  /** The version and declared total length (bytes 4..12) are never checked: two
      buffers that agree elsewhere parse to the same JSON document and binary chunk. */
  lemma HeaderLengthUnchecked<D>(buf: seq<byte>, buf': seq<byte>,
                                 parseJson: seq<Utf8.CodeUnit> -> Option<D>)
    requires |buf| == |buf'| && |buf| >= 12
    requires buf[..4] == buf'[..4] && buf[12..] == buf'[12..]
    requires ParseGlb(buf, parseJson).Ok?
    ensures ParseGlb(buf', parseJson).Ok?
    ensures ParseGlb(buf', parseJson).value.json == ParseGlb(buf, parseJson).value.json
    ensures ParseGlb(buf', parseJson).value.binary == ParseGlb(buf, parseJson).value.binary
  {
    WordAgrees(buf, buf', 0);
    WordAgrees(buf, buf', 12);
    WordAgrees(buf, buf', 16);
    var e := JsonEnd(buf);
    assert JsonEnd(buf') == e;
    assert buf[JSON_PAYLOAD_START..e] == buf'[JSON_PAYLOAD_START..e] by {
      SliceOfSuffix(buf, 12, JSON_PAYLOAD_START, e);
      SliceOfSuffix(buf', 12, JSON_PAYLOAD_START, e);
    }
    BinaryChunkAgrees(buf, buf', e);
  }

  /** The optional binary chunk lies after byte 12, so it reads the same in both. */
  lemma BinaryChunkAgrees(buf: seq<byte>, buf': seq<byte>, off: nat)
    requires |buf| == |buf'| && |buf| >= 12
    requires buf[..4] == buf'[..4] && buf[12..] == buf'[12..]
    requires 12 <= off <= |buf|
    ensures ReadBinaryChunk(buf, off) == ReadBinaryChunk(buf', off)
  {
    if off + 8 <= |buf| {
      WordAgrees(buf, buf', off);
      WordAgrees(buf, buf', off + 4);
      var hi := Min(off + 8 + U32LE(buf, off), |buf|);
      assert buf[off + 8..hi] == buf'[off + 8..hi] by {
        SliceOfSuffix(buf, 12, off + 8, hi);
        SliceOfSuffix(buf', 12, off + 8, hi);
      }
    }
  }
}

=== FILE: glb_loader.dfy ===
/** The loader pipeline (`load` after the download, and `buildScene`,
    src/utils/GLBLoader.js): container, textures, materials, meshes, scene tree.

    The JSON text is turned into a `Document` by the `parseJson` parameter (it stands
    for `JSON.parse` followed by reading the glTF fields), the per-texture decode
    outcome is `decodeOk`, and `canvas` says whether a canvas was supplied. */
module GlbLoader {
  import opened Results
  import opened Bytes
  import opened GltfDocument
  import opened GlbContainer
  import opened Textures
  import opened Materials
  import opened Meshes
  import opened SceneGraph

  datatype LoadError = InvalidContainer(container: GlbError) | InvalidScene(scene: SceneError)

  /** What `buildScene` produced on the way to its group. */
  datatype Model = Model(
    root: SceneRoot,
    textures: seq<Option<DecodedTexture>>,
    materials: seq<BuiltMaterial>,
    meshes: seq<MeshGroup>)

  /** Every built primitive names a position in the material list. */
  predicate MaterialsBound(m: Model) {
    forall g, q :: g in m.meshes && q in g.primitives ==> q.material < |m.materials|
  }

  /** `buildScene` on a parsed container. */
  function BuildModel(doc: Document, bin: Option<seq<byte>>, canvas: bool, decodeOk: nat -> bool, fuel: nat)
    : (r: Result<Model, LoadError>)
    ensures r.Ok? ==>
      && |r.value.textures| == |doc.textures|
      && |r.value.materials| == (if |doc.materials| == 0 then 1 else |doc.materials|)
      && |r.value.meshes| <= |doc.meshes|
      && MaterialsBound(r.value)
      && forall i :: 0 <= i < |r.value.materials| ==> BindingsValid(r.value.materials[i], r.value.textures)
    ensures r.Ok? ==>
      && r.value.textures == ParseTextures(doc, bin, canvas, decodeOk)
      && r.value.materials == BuildMaterials(doc, r.value.textures)
      && r.value.meshes == ParseMeshes(doc, bin, |r.value.materials|)
    ensures r.Ok? && |doc.scenes| > 0 ==>
      && |r.value.root.children| == |doc.scenes[0].nodes|
      && forall k :: 0 <= k < |r.value.root.children| ==>
           && r.value.root.children[k].source == doc.scenes[0].nodes[k]
           && Faithful(doc.nodes, r.value.meshes, r.value.root.children[k])
    ensures r.Ok? <==>
      BuildScene(doc, ParseMeshes(doc, bin, |BuildMaterials(doc, ParseTextures(doc, bin, canvas, decodeOk))|), fuel).Ok?
    ensures |doc.scenes| == 0 ==> r.Ok? && r.value.root == SceneRoot([])
    ensures |doc.scenes| > 0 && |doc.scenes[0].nodes| == 0 ==> r.Ok? && r.value.root == SceneRoot([])
  {
    var textures := ParseTextures(doc, bin, canvas, decodeOk);
    var materials := BuildMaterials(doc, textures);
    var meshes := ParseMeshes(doc, bin, |materials|);
    PrimitiveMaterialsInRange(doc, bin, |materials|);
    match BuildScene(doc, meshes, fuel)
    case Err(e) => Err(InvalidScene(e))
    case Ok(root) => Ok(Model(root, textures, materials, meshes))
  }

  lemma PrimitiveMaterialsInRange(doc: Document, bin: Option<seq<byte>>, materialCount: nat)
    requires materialCount > 0
    ensures forall g, q :: g in ParseMeshes(doc, bin, materialCount) && q in g.primitives ==> q.material < materialCount
  {
    forall g, q | g in ParseMeshes(doc, bin, materialCount) && q in g.primitives
      ensures q.material < materialCount
    {
      var prims := doc.meshes[g.source].primitives;
      assert q in BuildPrimitives(doc, bin, prims, materialCount, |prims|);
    }
  }

  /** `parseGLB` then `buildScene`. */
  function Load(buf: seq<byte>, parseJson: seq<Utf8.CodeUnit> -> Option<Document>, canvas: bool,
                decodeOk: nat -> bool, fuel: nat): (r: Result<Model, LoadError>)
    ensures ParseGlb(buf, parseJson).Err? ==> r == Err(InvalidContainer(ParseGlb(buf, parseJson).error))
    ensures r.Ok? ==> ParseGlb(buf, parseJson).Ok? && MaterialsBound(r.value)
    ensures ParseGlb(buf, parseJson).Ok? ==>
      r == BuildModel(ParseGlb(buf, parseJson).value.json, ParseGlb(buf, parseJson).value.binary,
                      canvas, decodeOk, fuel)
  {
    match ParseGlb(buf, parseJson)
    case Err(e) => Err(InvalidContainer(e))
    case Ok(glb) => BuildModel(glb.json, glb.binary, canvas, decodeOk, fuel)
  }

  /** A buffer whose first word is not "glTF" is rejected before anything is built. */
  lemma BadMagicRejected(buf: seq<byte>, parseJson: seq<Utf8.CodeUnit> -> Option<Document>, canvas: bool,
                         decodeOk: nat -> bool, fuel: nat)
    requires |buf| >= 4 && U32LE(buf, 0) != GLB_MAGIC
    ensures Load(buf, parseJson, canvas, decodeOk, fuel) == Err(InvalidContainer(BadMagic))
  {
  }

  /** Loading a written container builds the model of its JSON document and binary
      payload, exactly as if they had been handed over directly. */
  lemma LoadEncoded(version: nat, json: seq<byte>, bin: Option<seq<byte>>,
                    parseJson: seq<Utf8.CodeUnit> -> Option<Document>, doc: Document,
                    canvas: bool, decodeOk: nat -> bool, fuel: nat)
    requires Encodable(version, json, bin)
    requires parseJson(Utf8.Decode(json)) == Some(doc)
    ensures Load(EncodeGlb(version, json, bin), parseJson, canvas, decodeOk, fuel)
         == BuildModel(doc, bin, canvas, decodeOk, fuel)
  {
    ParseEncodedGlb(version, json, bin, parseJson);
  }

  /** With no material in the document the list is the single default material, and
      every primitive is bound to it whatever its own `material` says. */
  lemma NoMaterialsBindDefault(doc: Document, bin: Option<seq<byte>>, canvas: bool, decodeOk: nat -> bool, fuel: nat)
    requires |doc.materials| == 0
    requires BuildModel(doc, bin, canvas, decodeOk, fuel).Ok?
    ensures var m := BuildModel(doc, bin, canvas, decodeOk, fuel).value;
      && m.materials == [DefaultMaterial]
      && forall g, q :: g in m.meshes && q in g.primitives ==> q.material == 0
  {
  }
}

=== FILE: gltf_document.dfy ===
/** The parsed glTF JSON document as the loader reads it (src/utils/GLBLoader.js).

    Only the fields the loader looks at are kept. Every cross-reference is a plain
    integer that is checked when it is dereferenced, never at parse time; an index
    outside its collection reads `undefined` in JavaScript. A top-level array the
    document omits behaves exactly like an empty one on every path of the loader, so
    it is modelled as the empty sequence. A defaulted number (`x || 0`) is stored with
    its default applied. */
module GltfDocument {
  import opened Results

  /** `bufferViews[i]`: `byteOffset` defaults to 0; `byteLength` may be absent. */
  datatype BufferView = BufferView(byteOffset: nat, byteLength: Option<nat>)

  /** `accessors[i]`. `componentType` and `accessorType` are kept as written, so an
      unknown value reaches the fallbacks of `getArrayType` and `getComponentCount`. */
  datatype Accessor = Accessor(
    bufferView: Option<int>,
    byteOffset: nat,
    componentType: int,
    accessorType: string,
    count: nat)

  datatype Image = Image(bufferView: Option<int>, uri: Option<string>, mimeType: Option<string>)

  datatype Texture = Texture(source: Option<int>)

  /** A texture reference inside a material; `scale` is read for the normal texture and
      `strength` for the occlusion texture. */
  datatype TextureInfo = TextureInfo(index: Option<int>, scale: Option<real>, strength: Option<real>)

  datatype PbrMetallicRoughness = PbrMetallicRoughness(
    baseColorFactor: Option<seq<real>>,
    baseColorTexture: Option<TextureInfo>,
    metallicRoughnessTexture: Option<TextureInfo>)

  datatype Material = Material(
    pbr: Option<PbrMetallicRoughness>,
    normalTexture: Option<TextureInfo>,
    emissiveTexture: Option<TextureInfo>,
    occlusionTexture: Option<TextureInfo>,
    doubleSided: bool,
    alphaMode: Option<string>,
    alphaCutoff: Option<real>)

  /** The vertex attributes the loader reads, each an accessor index. A primitive whose
      `attributes` object is missing behaves like one with none of them. */
  datatype Attributes = Attributes(
    position: Option<int>,
    normal: Option<int>,
    texcoord0: Option<int>,
    texcoord1: Option<int>,
    color0: Option<int>)

  datatype Primitive = Primitive(attributes: Attributes, indices: Option<int>, material: Option<int>)

  datatype Mesh = Mesh(primitives: seq<Primitive>)

  /** `matrix` is kept whenever present (an array is truthy even when empty). */
  datatype Node = Node(
    mesh: Option<int>,
    matrix: Option<seq<real>>,
    translation: Option<seq<real>>,
    rotation: Option<seq<real>>,
    scale: Option<seq<real>>,
    children: seq<int>)

  datatype Scene = Scene(nodes: seq<int>)

  datatype Document = Document(
    bufferViews: seq<BufferView>,
    accessors: seq<Accessor>,
    images: seq<Image>,
    textures: seq<Texture>,
    materials: seq<Material>,
    meshes: seq<Mesh>,
    nodes: seq<Node>,
    scenes: seq<Scene>)

  /** `xs[i]` is defined (not `undefined`). */
  predicate InRange<T>(xs: seq<T>, i: int) {
    0 <= i < |xs|
  }
}

=== FILE: http_client.dfy ===
/** The request wrapper (src/plugin/request/Axios.ts): constructor defaults, URL
    composition, header merge, and how a response or a network failure settles the
    request and drives the error-code handler.

    `encodeURIComponent` is the parameter `enc`; what the model needs of it is that its
    output never holds the query delimiters `?`, `&` and `=`, as section 2.1 of
    RFC 3986 has them percent-encoded. The request itself (`uni.request`) is not
    modelled: its outcome is the input to `OnResponse` or `OnNetworkFailure`. */
module HttpClient {
  import opened Results
  import opened Text
  import opened LocalStorage
  import opened ErrorCodes

  const DEFAULT_TIMEOUT_MS: int := 60000
  const AUTHORIZATION: string := "Authorization"

  /** Header values are JSON values, as the token header is whatever the store holds. */
  type Headers = map<string, Value>

  datatype Config = Config(baseURL: Option<string>, timeout: Option<int>, headers: Option<Headers>)

  datatype Client = Client(baseURL: string, timeout: int, defaultHeaders: Headers)

  /** `new Axios(config)`: `baseURL || ''`, `timeout || 60000`, `headers || {}`. */
  function NewClient(c: Config): (r: Client)
    ensures r.timeout != 0
    ensures c.timeout.Some? && c.timeout.value != 0 ==> r.timeout == c.timeout.value
    ensures c.timeout.None? || c.timeout.value == 0 ==> r.timeout == DEFAULT_TIMEOUT_MS
    ensures r.baseURL == c.baseURL.GetOr("")
    ensures r.defaultHeaders == c.headers.GetOr(map[])
  {
    Client(c.baseURL.GetOr(""),
           if c.timeout.Some? && c.timeout.value != 0 then c.timeout.value else DEFAULT_TIMEOUT_MS,
           c.headers.GetOr(map[]))
  }

  lemma EmptyConfigDefaults()
    ensures NewClient(Config(None, None, None)) == Client("", 60000, map[])
  {
  }

  // -- URL composition --------------------------------------------------------

  /** The encoder escapes the query delimiters. */
  ghost predicate EscapesDelimiters(enc: string -> string) {
    forall s :: '?' !in enc(s) && '&' !in enc(s) && '=' !in enc(s)
  }

  /** An absolute URL (anything starting with "http") is kept; anything else is
      appended to the base URL. */
  function BaseUrl(client: Client, url: string): (r: string)
    ensures StartsWith(url, "http") ==> r == url
    ensures !StartsWith(url, "http") ==> r == client.baseURL + url
  {
    if StartsWith(url, "http") then url else client.baseURL + url
  }

  /** `enc(key)=enc(value)` for each parameter, in key order. */
  function Pairs(params: seq<(string, string)>, enc: string -> string): (r: seq<string>)
    ensures |r| == |params|
    ensures forall i :: 0 <= i < |r| ==> r[i] == enc(params[i].0) + "=" + enc(params[i].1)
  {
    seq(|params|, i requires 0 <= i < |params| => enc(params[i].0) + "=" + enc(params[i].1))
  }

  function QueryString(params: seq<(string, string)>, enc: string -> string): string {
    Join(Pairs(params, enc), '&')
  }

  /** `buildUrl(url, params)`. `params` lists the own keys in `Object.keys` order; an
      absent or empty object adds nothing. */
  function BuildUrl(client: Client, url: string, params: Option<seq<(string, string)>>, enc: string -> string)
    : (r: string)
    ensures StartsWith(r, BaseUrl(client, url))
    ensures params.None? || |params.value| == 0 ==> r == BaseUrl(client, url)
    ensures params.Some? && |params.value| > 0 ==>
      var base := BaseUrl(client, url);
      && |r| > |base|
      && r[|base|] == (if Contains(base, "?") then '&' else '?')
      && r[|base| + 1..] == QueryString(params.value, enc)
  {
    var base := BaseUrl(client, url);
    if params.None? || |params.value| == 0 then base
    else
      var r := base + [if Contains(base, "?") then '&' else '?'] + QueryString(params.value, enc);
      assert r[..|base|] == base;
      r
  }

  /** The query round trip: when the base has no '?', the built URL splits at '?' into
      the base and the query, the query splits at '&' into the pairs, and each pair
      splits at '=' into the encoded key and value. */
  lemma QueryRoundTrip(client: Client, url: string, params: seq<(string, string)>, enc: string -> string)
    requires EscapesDelimiters(enc)
    requires |params| > 0
    requires '?' !in BaseUrl(client, url)
    ensures var base := BaseUrl(client, url);
      var q := QueryString(params, enc);
      Split(BuildUrl(client, url, Some(params), enc), '?') == [base, q]
    ensures Split(QueryString(params, enc), '&') == Pairs(params, enc)
    ensures forall i :: 0 <= i < |params| ==>
      Split(Pairs(params, enc)[i], '=') == [enc(params[i].0), enc(params[i].1)]
  {
    var base := BaseUrl(client, url);
    var pairs := Pairs(params, enc);
    var q := QueryString(params, enc);
    forall i | 0 <= i <= |base|
      ensures !OccursAt(base, "?", i)
    {
      if i < |base| {
        assert base[i..i + 1][0] == base[i];
      }
    }
    forall k | 0 <= k < |pairs|
      ensures '?' !in pairs[k] && '&' !in pairs[k]
    {
      assert pairs[k] == enc(params[k].0) + "=" + enc(params[k].1);
    }
    JoinAvoids(pairs, '&', '?');
    SplitNoSep(q, '?');
    assert BuildUrl(client, url, Some(params), enc) == base + ['?'] + q;
    SplitAfterFirst(base, q, '?');
    SplitJoin(pairs, '&');
    forall i | 0 <= i < |params|
      ensures Split(pairs[i], '=') == [enc(params[i].0), enc(params[i].1)]
    {
      SplitAfterFirst(enc(params[i].0), enc(params[i].1), '=');
      SplitNoSep(enc(params[i].1), '=');
    }
  }

  // -- Headers ----------------------------------------------------------------

  /** `if (token)`: a non-empty string or any other non-null value. */
  predicate Truthy(v: Value) {
    v.Structured? || (v.Text? && v.s != "")
  }

  /** `{...defaultHeaders, ...config.headers}`, then `Authorization = token` when the
      token is truthy. */
  function MergeHeaders(defaults: Headers, perCall: Option<Headers>, token: Value): (r: Headers)
    ensures r.Keys == defaults.Keys + perCall.GetOr(map[]).Keys + (if Truthy(token) then {AUTHORIZATION} else {})
    ensures Truthy(token) ==> r[AUTHORIZATION] == token
    ensures forall k :: k in perCall.GetOr(map[]) && (k != AUTHORIZATION || !Truthy(token)) ==> r[k] == perCall.value[k]
    ensures forall k :: k in defaults && k !in perCall.GetOr(map[]) && (k != AUTHORIZATION || !Truthy(token)) ==>
      r[k] == defaults[k]
  {
    var merged := defaults + perCall.GetOr(map[]);
    if Truthy(token) then merged[AUTHORIZATION := token] else merged
  }

  /** Merging is idempotent: the merged headers, merged again with no per-call headers
      and the same token, come back unchanged. */
  lemma MergeHeadersIdempotent(defaults: Headers, perCall: Option<Headers>, token: Value)
    ensures var once := MergeHeaders(defaults, perCall, token);
      MergeHeaders(once, None, token) == once
  {
    var once := MergeHeaders(defaults, perCall, token);
    assert once + map[] == once;
  }

  datatype Method = GET | POST | PUT | DELETE

  datatype Options = Options(
    url: string,
    verb: Option<Method>,
    params: Option<seq<(string, string)>>,
    headers: Option<Headers>,
    autoHandleAuth: Option<bool>)

  datatype Prepared = Prepared(url: string, verb: Method, headers: Headers, timeout: int, autoHandleAuth: bool)

  /** The part of `request` before `uni.request`: reading the token (which evicts an
      expired one), merging headers, building the URL. */
  function Prepare(client: Client, opts: Options, store: Store, now: int, enc: string -> string)
    : (r: (Prepared, Store))
    ensures r.0.autoHandleAuth == opts.autoHandleAuth.GetOr(true)
    ensures r.0.verb == opts.verb.GetOr(GET)
    ensures r.0.timeout == client.timeout
    ensures r.0.url == BuildUrl(client, opts.url, opts.params, enc)
    ensures IsLoggedIn(store, now).0 && Truthy(store[TOKEN].data) ==>
      r.0.headers == (client.defaultHeaders + opts.headers.GetOr(map[]))[AUTHORIZATION := store[TOKEN].data]
    ensures !(IsLoggedIn(store, now).0 && Truthy(store[TOKEN].data)) ==>
      r.0.headers == client.defaultHeaders + opts.headers.GetOr(map[])
    ensures r.1 == IsLoggedIn(store, now).1
  {
    var read := GetToken(store, now);
    var headers := MergeHeaders(client.defaultHeaders, opts.headers, read.value);
    (Prepared(BuildUrl(client, opts.url, opts.params, enc), opts.verb.GetOr(GET), headers,
              client.timeout, opts.autoHandleAuth.GetOr(true)),
     read.store)
  }

  /** After `logout()` a request carries no Authorization beyond what the default and
      per-call headers themselves hold, and the read evicts nothing. */
  lemma PrepareAfterLogout(client: Client, opts: Options, store: Store, now: int, enc: string -> string)
    ensures var r := Prepare(client, opts, Logout(store), now, enc);
      && r.0.headers == client.defaultHeaders + opts.headers.GetOr(map[])
      && r.1 == Logout(store)
  {
  }

  // -- Settling the request ---------------------------------------------------

  /** An `IBaseResponse` body. */
  datatype Body = Body(code: Code, message: Option<string>, isSuccess: bool)

  datatype Settlement = Resolved(data: Option<Body>) | Rejected(reason: string)

  datatype StatusClass = Unauthorized | Denied | ServerError | ClientError | Passed

  /** The order of the checks: 401, 403, >= 500, >= 400, then success. */
  function ClassifyStatus(status: int): (c: StatusClass)
    ensures c == Unauthorized <==> status == 401
    ensures c == Denied <==> status == 403
    ensures c == ServerError <==> status >= 500
    ensures c == ClientError <==> 400 <= status < 500 && status != 401 && status != 403
    ensures c == Passed <==> status < 400
  {
    if status == 401 then Unauthorized
    else if status == 403 then Denied
    else if status >= 500 then ServerError
    else if status >= 400 then ClientError
    else Passed
  }

  function MessageOf(data: Option<Body>): Option<string> {
    if data.Some? then data.value.message else None
  }

  datatype Outcome = Outcome(settlement: Settlement, effect: Effect, handler: Handler)

  /** The `success` callback of `uni.request`. */
  function OnResponse(h: Handler, status: int, data: Option<Body>, autoHandleAuth: bool): (r: Outcome)
    ensures r.settlement.Rejected? <==> status >= 400
    ensures r.settlement.Resolved? ==> r.settlement.data == data
    ensures status < 400 && (data.None? || data.value.isSuccess) ==> r.effect == Silent && r.handler == h
    ensures status < 400 && data.Some? && !data.value.isSuccess ==>
      (r.effect, r.handler) == HandleCode(h, Response(data.value.code, data.value.message), autoHandleAuth)
  {
    match ClassifyStatus(status)
    case Unauthorized =>
      var (e, h') := HandleCode(h, Response(NumericCode(40100), Some("用户未登录")), autoHandleAuth);
      Outcome(Rejected("Unauthorized"), e, h')
    case Denied =>
      var (e, h') := HandleCode(h, Response(NumericCode(40300), Some("没有权限访问")), autoHandleAuth);
      Outcome(Rejected("Forbidden"), e, h')
    case ServerError =>
      var (e, h') := HandleCode(h, Response(NumericCode(40000), Some("服务器错误，请稍后重试")), autoHandleAuth);
      Outcome(Rejected("Server Error"), e, h')
    case ClientError =>
      var message := MessageOf(data);
      var (e, h') := HandleCode(h, Response(NumericCode(40000), Some(OrElse(message, "请求失败"))), autoHandleAuth);
      Outcome(Rejected(OrElse(message, "Request Error")), e, h')
    case Passed =>
      if data.Some? && !data.value.isSuccess then
        var (e, h') := HandleCode(h, Response(data.value.code, data.value.message), autoHandleAuth);
        Outcome(Resolved(data), e, h')
      else Outcome(Resolved(data), Silent, h)
  }

  /** 401 takes the session-expired path, guarded and switchable off. */
  lemma UnauthorizedEffect(h: Handler, data: Option<Body>, autoHandleAuth: bool)
    ensures OnResponse(h, 401, data, autoHandleAuth).effect
         == if autoHandleAuth && !h.handlingAuth then SessionExpired else Silent
  {
    NumericCodeBranch(40100);
  }

  /** 403 shows its fixed text and leaves the state alone. */
  lemma ForbiddenEffect(h: Handler, data: Option<Body>, autoHandleAuth: bool)
    ensures OnResponse(h, 403, data, autoHandleAuth) == Outcome(Rejected("Forbidden"), Toast(Some("没有权限访问")), h)
  {
    NumericCodeBranch(40300);
  }

  /** Server errors show their fixed text through the failure arm (code 40000). */
  lemma ServerErrorEffect(h: Handler, status: int, data: Option<Body>, autoHandleAuth: bool)
    requires status >= 500
    ensures OnResponse(h, status, data, autoHandleAuth)
         == Outcome(Rejected("Server Error"), Toast(Some("服务器错误，请稍后重试")), h)
  {
    NumericCodeBranch(40000);
  }

  /** Other client errors show the server's message, or a fixed text without one. */
  lemma ClientErrorEffect(h: Handler, status: int, data: Option<Body>, autoHandleAuth: bool)
    requires 400 <= status < 500 && status != 401 && status != 403
    ensures var r := OnResponse(h, status, data, autoHandleAuth);
      && r.settlement == Rejected(OrElse(MessageOf(data), "Request Error"))
      && r.effect == Toast(Some(OrElse(MessageOf(data), "请求失败")))
      && r.handler == h
  {
    NumericCodeBranch(40000);
    var message := OrElse(MessageOf(data), "请求失败");
    assert BranchOf(CodeText(NumericCode(40000))) == Failure;
    assert OrElse(Some(message), "操作失败") == message;
  }

  /** A body with `isSuccess: false` under a passing status still resolves with that
      body, after the handler has run on it. */
  lemma FailedBodyStillResolves(h: Handler, status: int, body: Body, autoHandleAuth: bool)
    requires status < 400 && !body.isSuccess
    ensures OnResponse(h, status, Some(body), autoHandleAuth).settlement == Resolved(Some(body))
    ensures OnResponse(h, status, Some(body), autoHandleAuth).effect
         == HandleCode(h, Response(body.code, body.message), autoHandleAuth).0
  {
  }

  /** The `fail` callback's message: "timeout" wins over "fail"; an absent or empty
      `errMsg` gives the generic text. */
  function FailureMessage(errMsg: Option<string>): (m: string)
    ensures m == "请求超时" <==> errMsg.Some? && Contains(errMsg.value, "timeout")
    ensures m == "网络连接失败" <==> errMsg.Some? && !Contains(errMsg.value, "timeout") && Contains(errMsg.value, "fail")
    ensures m == "网络请求失败" <==> !(errMsg.Some? && (Contains(errMsg.value, "timeout") || Contains(errMsg.value, "fail")))
  {
    if errMsg.Some? && errMsg.value != "" then
      if Contains(errMsg.value, "timeout") then "请求超时"
      else if Contains(errMsg.value, "fail") then "网络连接失败"
      else "网络请求失败"
    else "网络请求失败"
  }

  /** The `fail` callback: the handler runs with code 40000 and `autoHandleAuth` true. */
  function OnNetworkFailure(h: Handler, errMsg: Option<string>): (r: (Effect, Handler))
    ensures r.0.Toast? && r.0.title == Some(FailureMessage(errMsg))
    ensures r.1 == h
  {
    NumericErrorIsFailure();
    HandleCode(h, Response(NumericCode(40000), Some(FailureMessage(errMsg))), true)
  }

  /** A network failure always shows exactly its failure message and changes nothing
      else: code 40000 is never an auth code. */
  lemma NetworkFailureToasts(h: Handler, errMsg: Option<string>)
    ensures OnNetworkFailure(h, errMsg) == (Toast(Some(FailureMessage(errMsg))), h)
  {
  }
}

=== FILE: local_storage.dfy ===
/** The expiring key/value cache (src/common/helper/localStorageHelper.ts).

    Storage is a map from key to cell. A cell written by `set` is the JSON text of
    `{data, expire?}`; here it is the `Entry` it parses back to, so `JSON.stringify`
    followed by `JSON.parse` is taken to give the value back. The empty text is `Blank`;
    a text that does not parse, or parses to `null`, is `Unreadable`; a parsed value with
    no `data` field (the text `5`, say) is an `Entry` whose data is `Undefined`. The clock (`new Date().getTime()`, milliseconds) is the
    parameter `now`. */
module LocalStorage {
  import opened Results

  const TOKEN: string := "token"
  const USER_INFO: string := "user_info"
  const CATEGORY_LIST: string := "category_list"
  const CATEGORY_TREE: string := "category_tree"
  const SERIES_LIST: string := "series_list"
  const SERIES_TREE: string := "series_tree"

  /** Default lifetimes, in seconds. */
  const WEEK_SECONDS: int := 7 * 24 * 60 * 60
  const DAY_SECONDS: int := 24 * 60 * 60

  /** A stored JSON value: `null`, `undefined` (a missing field), a string, or any other
      value (kept opaque). */
  datatype Value = Null | Undefined | Text(s: string) | Structured(id: nat)

  datatype Cell = Entry(data: Value, expire: Option<int>) | Unreadable | Blank

  type Store = map<string, Cell>

  /** The result of a read, which may also evict the entry it found expired. */
  datatype Read = Read(value: Value, store: Store)

  /** `if (expireInSecond) cache.expire = now + expireInSecond * 1000`: 0 means forever. */
  function ExpiryOf(expireInSecond: Option<int>, now: int): (e: Option<int>)
    ensures e.Some? <==> expireInSecond.Some? && expireInSecond.value != 0
    ensures e.Some? ==> e.value == now + 1000 * expireInSecond.value
  {
    if expireInSecond.Some? && expireInSecond.value != 0 then Some(now + 1000 * expireInSecond.value) else None
  }

  /** `expire && expire < now`: an expiry of 0 is falsy and never fires. */
  predicate Expired(c: Cell, now: int) {
    c.Entry? && c.expire.Some? && c.expire.value != 0 && c.expire.value < now
  }

  function Set(store: Store, key: string, data: Value, expireInSecond: Option<int>, now: int): (r: Store)
    ensures r.Keys == store.Keys + {key}
    ensures forall k :: k in store && k != key ==> r[k] == store[k]
    ensures r[key].Entry? && r[key].data == data
    ensures r[key].expire == ExpiryOf(expireInSecond, now)
  {
    store[key := Entry(data, ExpiryOf(expireInSecond, now))]
  }

  /** `get(key, defaultValue)`. */
  function Get(store: Store, key: string, default: Value, now: int): (r: Read)
    ensures r.store == store || r.store == store - {key}
    ensures key !in store ==> r == Read(default, store)
    ensures key in store && (store[key].Unreadable? || store[key].Blank?) ==> r == Read(default, store)
    ensures key in store && Expired(store[key], now) ==> r == Read(default, store - {key})
    ensures key in store && store[key].Entry? && !Expired(store[key], now) ==> r == Read(store[key].data, store)
  {
    if key !in store then Read(default, store)
    else
      match store[key]
      case Unreadable => Read(default, store)
      case Blank => Read(default, store)
      case Entry(data, _) => if Expired(store[key], now) then Read(default, store - {key}) else Read(data, store)
  }

  function Remove(store: Store, key: string): (r: Store)
    ensures r.Keys == store.Keys - {key}
    ensures forall k :: k in r ==> r[k] == store[k]
  {
    store - {key}
  }

  function Clear(store: Store): (r: Store)
    ensures |r| == 0
  {
    map[]
  }

  /** `has(key)`: the raw text is present and not empty; the expiry is not looked at. */
  function Has(store: Store, key: string): (r: bool)
    ensures r <==> key in store && !store[key].Blank?
  {
    key in store && !store[key].Blank?
  }

  /** The value written, read back before its deadline, is the value read; read after
      it, the default is returned and the key evicted. The deadline itself still reads. */
  lemma SetThenGet(store: Store, key: string, data: Value, expireInSecond: Option<int>, now: int,
                   default: Value, later: int)
    ensures var written := Set(store, key, data, expireInSecond, now);
      var e := ExpiryOf(expireInSecond, now);
      var passed := e.Some? && e.value != 0 && e.value < later;
      Get(written, key, default, later)
        == if passed then Read(default, written - {key}) else Read(data, written)
  {
  }

  /** Reading twice at the same instant gives the same value and the same store. */
  lemma GetIdempotent(store: Store, key: string, default: Value, now: int)
    ensures var first := Get(store, key, default, now);
      Get(first.store, key, default, now) == first
  {
  }

  /** `has` can report an entry that `get` treats as gone; the `get` then evicts it. */
  lemma HasOutlivesExpiry(store: Store, key: string, default: Value, now: int)
    requires key in store && Expired(store[key], now)
    ensures Has(store, key)
    ensures Get(store, key, default, now).value == default
    ensures !Has(Get(store, key, default, now).store, key)
  {
  }

  /** An empty stored text behaves as a missing key for both `has` and `get`. */
  lemma BlankReadsAsAbsent(store: Store, key: string, default: Value, now: int)
    requires key in store && store[key].Blank?
    ensures !Has(store, key) && !Has(store - {key}, key)
    ensures Get(store, key, default, now) == Read(default, store)
    ensures Get(store - {key}, key, default, now) == Read(default, store - {key})
  {
  }

  // -- Token and user information --------------------------------------------

  /** `key` holds a readable, unexpired entry whose data is not `null`. */
  predicate LiveValue(store: Store, key: string, now: int) {
    key in store && store[key].Entry? && !Expired(store[key], now) && store[key].data != Null
  }

  /** `setToken(token, expireInSecond = 7 days)`. */
  function SetToken(store: Store, token: string, expireInSecond: Option<int>, now: int): (r: Store)
    ensures r.Keys == store.Keys + {TOKEN}
    ensures r[TOKEN] == Entry(Text(token), ExpiryOf(Some(expireInSecond.GetOr(WEEK_SECONDS)), now))
    ensures forall k :: k in store && k != TOKEN ==> r[k] == store[k]
  {
    Set(store, TOKEN, Text(token), Some(expireInSecond.GetOr(WEEK_SECONDS)), now)
  }

  /** `getToken()`: the live token, or `null`. */
  function GetToken(store: Store, now: int): (r: Read)
    ensures r.value != Null <==> LiveValue(store, TOKEN, now)
    ensures r.value != Null ==> r.value == store[TOKEN].data && r.store == store
    ensures r.store == if TOKEN in store && Expired(store[TOKEN], now) then store - {TOKEN} else store
  {
    Get(store, TOKEN, Null, now)
  }

  function RemoveToken(store: Store): (r: Store)
    ensures r.Keys == store.Keys - {TOKEN}
    ensures forall k :: k in r ==> r[k] == store[k]
  {
    Remove(store, TOKEN)
  }

  /** `isLoggedIn()`: a live token entry whose value is not `null`. */
  function IsLoggedIn(store: Store, now: int): (r: (bool, Store))
    ensures r.0 <==> TOKEN in store && store[TOKEN].Entry? && !Expired(store[TOKEN], now) && store[TOKEN].data != Null
    ensures r.1 == GetToken(store, now).store
  {
    var read := GetToken(store, now);
    (read.value != Null, read.store)
  }

  /** `setUserInfo(userInfo, expireInSecond = 7 days)`. */
  function SetUserInfo(store: Store, info: Value, expireInSecond: Option<int>, now: int): (r: Store)
    ensures r.Keys == store.Keys + {USER_INFO}
    ensures r[USER_INFO] == Entry(info, ExpiryOf(Some(expireInSecond.GetOr(WEEK_SECONDS)), now))
    ensures forall k :: k in store && k != USER_INFO ==> r[k] == store[k]
  {
    Set(store, USER_INFO, info, Some(expireInSecond.GetOr(WEEK_SECONDS)), now)
  }

  function GetUserInfo(store: Store, now: int): (r: Read)
    ensures r.value != Null <==> LiveValue(store, USER_INFO, now)
    ensures r.value != Null ==> r.value == store[USER_INFO].data && r.store == store
    ensures r.store == if USER_INFO in store && Expired(store[USER_INFO], now) then store - {USER_INFO} else store
  {
    Get(store, USER_INFO, Null, now)
  }

  function RemoveUserInfo(store: Store): (r: Store)
    ensures r.Keys == store.Keys - {USER_INFO}
    ensures forall k :: k in r ==> r[k] == store[k]
  {
    Remove(store, USER_INFO)
  }

  /** `logout()`: exactly the token and the user information go. */
  function Logout(store: Store): (r: Store)
    ensures r.Keys == store.Keys - {TOKEN, USER_INFO}
    ensures forall k :: k in r ==> r[k] == store[k]
  {
    RemoveUserInfo(RemoveToken(store))
  }

  /** A token set with the default lifetime keeps the user logged in for a week, to
      the millisecond, and no longer. */
  lemma TokenLastsAWeek(store: Store, token: string, now: int, later: int)
    requires now >= 0
    ensures IsLoggedIn(SetToken(store, token, None, now), later).0 <==> later <= now + 1000 * WEEK_SECONDS
  {
  }

  /** A stored token that parses to something without a `data` field reads as
      `undefined`, which is not `null`, so `isLoggedIn` reports a session. */
  lemma ShapelessTokenLogsIn(store: Store, expire: Option<int>, now: int)
    requires TOKEN in store && store[TOKEN] == Entry(Undefined, expire)
    requires !Expired(store[TOKEN], now)
    ensures GetToken(store, now) == Read(Undefined, store)
    ensures IsLoggedIn(store, now) == (true, store)
  {
  }

  lemma LogoutEndsSession(store: Store, now: int)
    ensures !IsLoggedIn(Logout(store), now).0
    ensures GetUserInfo(Logout(store), now).value == Null
  {
  }

  // -- Category and series caches ---------------------------------------------

  datatype CacheKind = CategoryList | CategoryTree | SeriesList | SeriesTree

  function CacheKey(kind: CacheKind): string {
    match kind
    case CategoryList => CATEGORY_LIST
    case CategoryTree => CATEGORY_TREE
    case SeriesList => SERIES_LIST
    case SeriesTree => SERIES_TREE
  }

  /** The four cache keys, which differ from each other and from the session keys. */
  lemma CacheKeysDistinct(a: CacheKind, b: CacheKind)
    ensures CacheKey(a) == CacheKey(b) <==> a == b
    ensures CacheKey(a) != TOKEN && CacheKey(a) != USER_INFO
  {
  }

  /** `setCategoryList` and its siblings: a one-day default lifetime. */
  function SetCache(store: Store, kind: CacheKind, data: Value, expireInSecond: Option<int>, now: int): (r: Store)
    ensures r.Keys == store.Keys + {CacheKey(kind)}
    ensures r[CacheKey(kind)] == Entry(data, ExpiryOf(Some(expireInSecond.GetOr(DAY_SECONDS)), now))
    ensures forall k :: k in store && k != CacheKey(kind) ==> r[k] == store[k]
  {
    Set(store, CacheKey(kind), data, Some(expireInSecond.GetOr(DAY_SECONDS)), now)
  }

  /** `getCategoryList()` and its siblings. */
  function GetCache(store: Store, kind: CacheKind, now: int): (r: Read)
    ensures r.value != Null <==> LiveValue(store, CacheKey(kind), now)
    ensures r.value != Null ==> r.value == store[CacheKey(kind)].data && r.store == store
    ensures r.store == if CacheKey(kind) in store && Expired(store[CacheKey(kind)], now) then store - {CacheKey(kind)} else store
  {
    Get(store, CacheKey(kind), Null, now)
  }

  /** `removeCategoryList()` and its siblings. */
  function RemoveCache(store: Store, kind: CacheKind): (r: Store)
    ensures r.Keys == store.Keys - {CacheKey(kind)}
    ensures forall k :: k in r ==> r[k] == store[k]
  {
    Remove(store, CacheKey(kind))
  }

  /** `clearCategoryCache()`: exactly the four cache keys go. */
  function ClearCategoryCache(store: Store): (r: Store)
    ensures r.Keys == store.Keys - {CATEGORY_LIST, CATEGORY_TREE, SERIES_LIST, SERIES_TREE}
    ensures forall k :: k in r ==> r[k] == store[k]
  {
    RemoveCache(RemoveCache(RemoveCache(RemoveCache(store, CategoryList), CategoryTree), SeriesList), SeriesTree)
  }

  /** Clearing the caches leaves the session alone. */
  lemma ClearCacheKeepsSession(store: Store, now: int)
    ensures IsLoggedIn(ClearCategoryCache(store), now).0 == IsLoggedIn(store, now).0
    ensures forall kind :: GetCache(ClearCategoryCache(store), kind, now).value == Null
  {
  }
}

=== FILE: materials.dfy ===
/** Material list construction (`parseMaterials`, src/utils/GLBLoader.js).

    Only the boolean and enumeration outcomes are kept: which texture slot each map
    binds, transparency, depth writing, the alpha test threshold, opacity, and the
    normal-scale and occlusion-strength numbers. Colours, metalness, roughness and
    emissive values are three.js numerics and are left out. Numbers are `real`. */
module Materials {
  import opened Results
  import opened GltfDocument
  import opened Textures

  /** The outcome of `new THREE.MeshStandardMaterial(...)` plus the updates the loader
      makes. `source` is the material's position in the document, `None` for the
      default material. */
  datatype BuiltMaterial = BuiltMaterial(
    source: Option<nat>,
    doubleSide: bool,
    transparent: bool,
    depthWrite: bool,
    alphaTest: real,
    opacity: real,
    colorMap: Option<nat>,
    metalnessRoughnessMap: Option<nat>,
    normalMap: Option<nat>,
    normalScale: real,
    emissiveMap: Option<nat>,
    aoMap: Option<nat>,
    aoIntensity: real)

  /** The fallback when the document declares no material: three.js defaults
      (opaque, depth-writing, no alpha test, no maps), rendered double-sided. */
  const DefaultMaterial: BuiltMaterial :=
    BuiltMaterial(None, true, false, true, 0.0, 1.0, None, None, None, 1.0, None, None, 1.0)

  /** `info && textures.length > 0` then `info.index !== undefined && textures[info.index]`:
      the slot a texture reference binds, when that slot holds a decoded texture. */
  function BoundSlot(info: Option<TextureInfo>, slots: seq<Option<DecodedTexture>>): (r: Option<nat>)
    ensures r.Some? ==> r.value < |slots| && slots[r.value].Some?
    ensures r.Some? <==>
      info.Some? && info.value.index.Some? && InRange(slots, info.value.index.value)
      && slots[info.value.index.value].Some?
  {
    if info.Some? && |slots| > 0 && info.value.index.Some? && InRange(slots, info.value.index.value)
       && slots[info.value.index.value].Some?
    then Some(info.value.index.value as nat)
    else None
  }

  /** The base colour factor's alpha, when the factor has a fourth entry. */
  function FactorAlpha(m: Material): Option<real> {
    if m.pbr.Some? && m.pbr.value.baseColorFactor.Some? && |m.pbr.value.baseColorFactor.value| > 3
    then Some(m.pbr.value.baseColorFactor.value[3])
    else None
  }

  predicate LowAlpha(m: Material) {
    FactorAlpha(m).Some? && FactorAlpha(m).value < 1.0
  }

  predicate IsBlend(m: Material) {
    m.alphaMode == Some("BLEND")
  }

  predicate IsMask(m: Material) {
    m.alphaMode == Some("MASK")
  }

  /** Every map of a built material names a slot that holds a decoded texture. */
  predicate BindingsValid(b: BuiltMaterial, slots: seq<Option<DecodedTexture>>) {
    && (b.colorMap.Some? ==> b.colorMap.value < |slots| && slots[b.colorMap.value].Some?)
    && (b.metalnessRoughnessMap.Some? ==> b.metalnessRoughnessMap.value < |slots| && slots[b.metalnessRoughnessMap.value].Some?)
    && (b.normalMap.Some? ==> b.normalMap.value < |slots| && slots[b.normalMap.value].Some?)
    && (b.emissiveMap.Some? ==> b.emissiveMap.value < |slots| && slots[b.emissiveMap.value].Some?)
    && (b.aoMap.Some? ==> b.aoMap.value < |slots| && slots[b.aoMap.value].Some?)
  }

  /** `new THREE.MeshStandardMaterial({side: DoubleSide, ...})` for entry i, before the
      loader's updates: three.js defaults, rendered double-sided. */
  function Fresh(i: nat): (b: BuiltMaterial)
    ensures b.source == Some(i) && b.(source := None) == DefaultMaterial
  {
    DefaultMaterial.(source := Some(i))
  }

  /** `material.<map> = textures[index]` when the reference binds, else no change. */
  function Rebind(current: Option<nat>, info: Option<TextureInfo>, slots: seq<Option<DecodedTexture>>): (r: Option<nat>)
    ensures r == if BoundSlot(info, slots).Some? then BoundSlot(info, slots) else current
  {
    var bound := BoundSlot(info, slots);
    if bound.Some? then bound else current
  }

  /** The `pbrMetallicRoughness` block: a base-colour alpha below 1 sets the opacity and
      transparency, then the colour map and the metal/roughness map are bound. Nothing
      else changes. */
  function WithPbr(b: BuiltMaterial, m: Material, slots: seq<Option<DecodedTexture>>): (r: BuiltMaterial)
    ensures r.(transparent := b.transparent, opacity := b.opacity, colorMap := b.colorMap,
               metalnessRoughnessMap := b.metalnessRoughnessMap) == b
    ensures r.transparent <==> b.transparent || LowAlpha(m)
    ensures r.opacity == if LowAlpha(m) then FactorAlpha(m).value else b.opacity
  {
    match m.pbr
    case None => b
    case Some(pbr) =>
      var b1 := if LowAlpha(m) then b.(opacity := FactorAlpha(m).value, transparent := true) else b;
      b1.(colorMap := Rebind(b1.colorMap, pbr.baseColorTexture, slots),
          metalnessRoughnessMap := Rebind(b1.metalnessRoughnessMap, pbr.metallicRoughnessTexture, slots))
  }

  /** The normal map and, with it, its scale (default 1). Nothing else changes. */
  function WithNormalMap(b: BuiltMaterial, m: Material, slots: seq<Option<DecodedTexture>>): (r: BuiltMaterial)
    ensures r.(normalMap := b.normalMap, normalScale := b.normalScale) == b
    ensures BoundSlot(m.normalTexture, slots).None? ==> r == b
  {
    var bound := BoundSlot(m.normalTexture, slots);
    if bound.Some? then b.(normalMap := bound, normalScale := m.normalTexture.value.scale.GetOr(1.0)) else b
  }

  /** The `alphaMode` switch: BLEND turns transparency on and depth writing off, MASK
      sets the alpha test to the cutoff (default 0.5). Nothing else changes. */
  function WithAlphaMode(b: BuiltMaterial, m: Material): (r: BuiltMaterial)
    ensures r.(transparent := b.transparent, depthWrite := b.depthWrite, alphaTest := b.alphaTest) == b
    ensures r.transparent <==> b.transparent || IsBlend(m)
    ensures r.depthWrite <==> b.depthWrite && !IsBlend(m)
    ensures r.alphaTest == if IsMask(m) then m.alphaCutoff.GetOr(0.5) else b.alphaTest
  {
    if IsBlend(m) then b.(transparent := true, depthWrite := false)
    else if IsMask(m) then b.(alphaTest := m.alphaCutoff.GetOr(0.5))
    else b
  }

  /** The emissive map. Nothing else changes. */
  function WithEmissiveMap(b: BuiltMaterial, m: Material, slots: seq<Option<DecodedTexture>>): (r: BuiltMaterial)
    ensures r.(emissiveMap := b.emissiveMap) == b
  {
    b.(emissiveMap := Rebind(b.emissiveMap, m.emissiveTexture, slots))
  }

  /** The occlusion map and, with it, its strength (default 1). Nothing else changes. */
  function WithAoMap(b: BuiltMaterial, m: Material, slots: seq<Option<DecodedTexture>>): (r: BuiltMaterial)
    ensures r.(aoMap := b.aoMap, aoIntensity := b.aoIntensity) == b
    ensures BoundSlot(m.occlusionTexture, slots).None? ==> r == b
  {
    var bound := BoundSlot(m.occlusionTexture, slots);
    if bound.Some? then b.(aoMap := bound, aoIntensity := m.occlusionTexture.value.strength.GetOr(1.0)) else b
  }

  /** The i-th entry of `materials`: the fresh material, then the loader's updates in
      the order it makes them. */
  function BuildMaterial(m: Material, i: nat, slots: seq<Option<DecodedTexture>>): (b: BuiltMaterial)
    ensures b.source == Some(i) && b.doubleSide
    ensures b.transparent <==> IsBlend(m) || LowAlpha(m)
    ensures b.depthWrite <==> !IsBlend(m)
    ensures IsMask(m) ==> b.alphaTest == m.alphaCutoff.GetOr(0.5)
    ensures !IsMask(m) ==> b.alphaTest == 0.0
    ensures b.opacity == if LowAlpha(m) then FactorAlpha(m).value else 1.0
    ensures b.colorMap == if m.pbr.Some? then BoundSlot(m.pbr.value.baseColorTexture, slots) else None
    ensures b.metalnessRoughnessMap == if m.pbr.Some? then BoundSlot(m.pbr.value.metallicRoughnessTexture, slots) else None
    ensures b.normalMap == BoundSlot(m.normalTexture, slots)
    ensures b.normalScale == if b.normalMap.Some? then m.normalTexture.value.scale.GetOr(1.0) else 1.0
    ensures b.emissiveMap == BoundSlot(m.emissiveTexture, slots)
    ensures b.aoMap == BoundSlot(m.occlusionTexture, slots)
    ensures b.aoIntensity == if b.aoMap.Some? then m.occlusionTexture.value.strength.GetOr(1.0) else 1.0
    ensures BindingsValid(b, slots)
  {
    var start := Fresh(i);
    var pbr := WithPbr(start, m, slots);
    var normal := WithNormalMap(pbr, m, slots);
    var alpha := WithAlphaMode(normal, m);
    var emissive := WithEmissiveMap(alpha, m, slots);
    WithAoMap(emissive, m, slots)
  }

  /** The alpha mode decides transparency, depth writing and the alpha test, and
      nothing else: opacity, every map binding, the normal scale and the occlusion
      strength are the same whatever the mode. */
  lemma AlphaModeIndependent(m: Material, mode: Option<string>, i: nat, slots: seq<Option<DecodedTexture>>)
    ensures var x := BuildMaterial(m.(alphaMode := mode), i, slots);
      var y := BuildMaterial(m, i, slots);
      x.(transparent := false, depthWrite := true, alphaTest := 0.0)
        == y.(transparent := false, depthWrite := true, alphaTest := 0.0)
  {
    var m' := m.(alphaMode := mode);
    assert FactorAlpha(m') == FactorAlpha(m);
  }

  function BuildMaterials(doc: Document, slots: seq<Option<DecodedTexture>>): (r: seq<BuiltMaterial>)
    ensures |r| >= 1
    ensures |doc.materials| == 0 ==> r == [DefaultMaterial]
    ensures |doc.materials| > 0 ==> |r| == |doc.materials|
    ensures |doc.materials| > 0 ==> forall i :: 0 <= i < |r| ==> r[i].source == Some(i)
    ensures |doc.materials| > 0 ==> forall i :: 0 <= i < |r| ==> r[i] == BuildMaterial(doc.materials[i], i, slots)
    ensures forall i :: 0 <= i < |r| ==> r[i].doubleSide && BindingsValid(r[i], slots)
  {
    if |doc.materials| == 0 then [DefaultMaterial]
    else seq(|doc.materials|, i requires 0 <= i < |doc.materials| => BuildMaterial(doc.materials[i], i, slots))
  }

  /** A texture reference binds exactly when its slot is present; an empty slot (failed
      or skipped texture) leaves the map unset without failing the material. */
  lemma BaseColorMapBinding(m: Material, i: nat, slots: seq<Option<DecodedTexture>>, k: nat)
    requires m.pbr.Some? && m.pbr.value.baseColorTexture.Some?
    requires m.pbr.value.baseColorTexture.value.index == Some(k as int)
    ensures BuildMaterial(m, i, slots).colorMap == Some(k) <==> k < |slots| && slots[k].Some?
    ensures BuildMaterial(m, i, slots).colorMap.None? <==> !(k < |slots| && slots[k].Some?)
  {
  }
}

=== FILE: meshes.dfy ===
/** Geometry and mesh construction (`parseGeometry`, `parseMeshes`,
    src/utils/GLBLoader.js).

    A primitive whose geometry throws (no POSITION, or an attribute whose accessor
    cannot be resolved) is caught and skipped on its own; a mesh left with no
    primitive is not added to the result, so the result list is compacted. Three.js
    object construction, `computeVertexNormals` and the mesh/primitive names are not
    modelled; the geometry records which accessor windows were attached and whether
    normals would be recomputed. */
module Meshes {
  import opened Results
  import opened GltfDocument
  import opened Accessors

  datatype GeometryError = MissingPosition | AttributeError(cause: AccessorError)

  /** The attributes attached to a `BufferGeometry`, and whether
      `computeVertexNormals` runs on it. */
  datatype Geometry = Geometry(
    position: View,
    normal: Option<View>,
    uv: Option<View>,
    uv2: Option<View>,
    color: Option<View>,
    index: Option<View>,
    computeNormals: bool)

  /** An optional accessor reference is absent or resolves. */
  predicate Resolves(doc: Document, a: Option<int>, bin: Option<seq<Bytes.byte>>) {
    a.None? || ResolveAccessor(doc, a.value, bin).Ok?
  }

  function ResolveOptional(doc: Document, a: Option<int>, bin: Option<seq<Bytes.byte>>)
    : (r: Result<Option<View>, GeometryError>)
    ensures r.Ok? <==> Resolves(doc, a, bin)
    ensures r.Ok? ==> (r.value.Some? <==> a.Some?)
    ensures r.Ok? && a.Some? ==> Ok(r.value.value) == ResolveAccessor(doc, a.value, bin)
  {
    match a
    case None => Ok(None)
    case Some(i) =>
      match ResolveAccessor(doc, i, bin)
      case Ok(v) => Ok(Some(v))
      case Err(e) => Err(AttributeError(e))
  }

  /** `!attributes.NORMAL`: true when NORMAL is absent and also when it is accessor 0. */
  predicate NormalsRecomputed(a: Attributes) {
    a.normal.None? || a.normal == Some(0)
  }

  function ParseGeometry(doc: Document, p: Primitive, bin: Option<seq<Bytes.byte>>): (r: Result<Geometry, GeometryError>)
    ensures r == Err(MissingPosition) <==> p.attributes.position.None?
    ensures r.Ok? <==>
      && p.attributes.position.Some?
      && Resolves(doc, p.attributes.position, bin)
      && Resolves(doc, p.attributes.normal, bin)
      && Resolves(doc, p.attributes.texcoord0, bin)
      && Resolves(doc, p.attributes.texcoord1, bin)
      && Resolves(doc, p.attributes.color0, bin)
      && Resolves(doc, p.indices, bin)
    ensures r.Ok? ==>
      && Ok(r.value.position) == ResolveAccessor(doc, p.attributes.position.value, bin)
      && (r.value.normal.Some? <==> p.attributes.normal.Some?)
      && (r.value.uv.Some? <==> p.attributes.texcoord0.Some?)
      && (r.value.uv2.Some? <==> p.attributes.texcoord1.Some?)
      && (r.value.color.Some? <==> p.attributes.color0.Some?)
      && (r.value.index.Some? <==> p.indices.Some?)
      && (r.value.computeNormals <==> NormalsRecomputed(p.attributes))
  {
    var attrs := p.attributes;
    if attrs.position.None? then Err(MissingPosition)
    else
      var position :- ResolveOptional(doc, attrs.position, bin);
      var normal :- ResolveOptional(doc, attrs.normal, bin);
      var uv :- ResolveOptional(doc, attrs.texcoord0, bin);
      var uv2 :- ResolveOptional(doc, attrs.texcoord1, bin);
      var color :- ResolveOptional(doc, attrs.color0, bin);
      var index :- ResolveOptional(doc, p.indices, bin);
      Ok(Geometry(position.value, normal, uv, uv2, color, index, NormalsRecomputed(attrs)))
  }

  /** NORMAL = 0 is attached (`!== undefined`) and yet recomputed (`!0` is true). */
  lemma NormalZeroAttachedAndRecomputed(doc: Document, p: Primitive, bin: Option<seq<Bytes.byte>>)
    requires p.attributes.normal == Some(0)
    requires ParseGeometry(doc, p, bin).Ok?
    ensures ParseGeometry(doc, p, bin).value.normal.Some?
    ensures ParseGeometry(doc, p, bin).value.computeNormals
  {
  }

  datatype BuiltPrimitive = BuiltPrimitive(source: nat, geometry: Geometry, material: nat)

  /** A mesh group: the document mesh it came from and its surviving primitives. */
  datatype MeshGroup = MeshGroup(source: nat, primitives: seq<BuiltPrimitive>)

  /** `materials[primitive.material ?? 0] || materials[0]`, as a position in the list. */
  function MaterialFor(p: Primitive, materialCount: nat): (m: nat)
    ensures materialCount > 0 ==> m < materialCount
    ensures p.material.Some? && 0 <= p.material.value < materialCount ==> m == p.material.value
    ensures !(p.material.Some? && 0 <= p.material.value < materialCount) ==> m == 0
  {
    var index := p.material.GetOr(0);
    if 0 <= index < materialCount then index else 0
  }

  predicate PrimitiveParses(doc: Document, prims: seq<Primitive>, j: int, bin: Option<seq<Bytes.byte>>) {
    0 <= j < |prims| && ParseGeometry(doc, prims[j], bin).Ok?
  }

  function PrimitiveSources(r: seq<BuiltPrimitive>): set<nat> {
    set q | q in r :: q.source
  }

  /** The survivors' sources are exactly the parsing primitives among `prims[..k]`. */
  predicate SourcesExact(doc: Document, bin: Option<seq<Bytes.byte>>, prims: seq<Primitive>, k: nat,
                         r: seq<BuiltPrimitive>) {
    PrimitiveSources(r) == (set j | 0 <= j < k && PrimitiveParses(doc, prims, j, bin))
  }

  predicate Ascending(r: seq<BuiltPrimitive>) {
    forall a, b :: 0 <= a < b < |r| ==> r[a].source < r[b].source
  }

  /** Each survivor comes from `prims[..k]` and carries its geometry and material. */
  predicate Tagged(doc: Document, bin: Option<seq<Bytes.byte>>, prims: seq<Primitive>,
                   materialCount: nat, k: nat, r: seq<BuiltPrimitive>)
    requires k <= |prims|
  {
    forall q :: q in r ==>
      && q.source < k
      && Ok(q.geometry) == ParseGeometry(doc, prims[q.source], bin)
      && q.material == MaterialFor(prims[q.source], materialCount)
  }

  lemma SourcesKept(doc: Document, bin: Option<seq<Bytes.byte>>, prims: seq<Primitive>, k: nat,
                    before: seq<BuiltPrimitive>, q: BuiltPrimitive)
    requires 0 < k <= |prims|
    requires SourcesExact(doc, bin, prims, k - 1, before)
    requires PrimitiveParses(doc, prims, k - 1, bin) && q.source == k - 1
    ensures SourcesExact(doc, bin, prims, k, before + [q])
  {
    assert forall x :: x in before + [q] <==> x in before || x == q;
    assert PrimitiveSources(before + [q]) == PrimitiveSources(before) + {q.source};
    assert (set j | 0 <= j < k && PrimitiveParses(doc, prims, j, bin))
        == (set j | 0 <= j < k - 1 && PrimitiveParses(doc, prims, j, bin)) + {k - 1};
  }

  lemma AscendingKept(before: seq<BuiltPrimitive>, q: BuiltPrimitive)
    requires Ascending(before)
    requires forall x :: x in before ==> x.source < q.source
    ensures Ascending(before + [q])
  {
    var r := before + [q];
    forall a, b | 0 <= a < b < |r|
      ensures r[a].source < r[b].source
    {
      assert r[a] == before[a] && before[a] in before;
    }
  }

  lemma TaggedKept(doc: Document, bin: Option<seq<Bytes.byte>>, prims: seq<Primitive>,
                   materialCount: nat, k: nat, before: seq<BuiltPrimitive>, g: Geometry)
    requires 0 < k <= |prims|
    requires Tagged(doc, bin, prims, materialCount, k - 1, before)
    requires ParseGeometry(doc, prims[k - 1], bin) == Ok(g)
    ensures Tagged(doc, bin, prims, materialCount, k,
                   before + [BuiltPrimitive(k - 1, g, MaterialFor(prims[k - 1], materialCount))])
  {
    var q := BuiltPrimitive(k - 1, g, MaterialFor(prims[k - 1], materialCount));
    forall x | x in before + [q]
      ensures x.source < k
      ensures Ok(x.geometry) == ParseGeometry(doc, prims[x.source], bin)
      ensures x.material == MaterialFor(prims[x.source], materialCount)
    {
      if x != q {
        assert x in before;
      }
    }
  }

  lemma SourcesSame(doc: Document, bin: Option<seq<Bytes.byte>>, prims: seq<Primitive>, k: nat,
                    before: seq<BuiltPrimitive>)
    requires 0 < k <= |prims|
    requires SourcesExact(doc, bin, prims, k - 1, before)
    requires !PrimitiveParses(doc, prims, k - 1, bin)
    ensures SourcesExact(doc, bin, prims, k, before)
  {
    assert (set j | 0 <= j < k && PrimitiveParses(doc, prims, j, bin))
        == (set j | 0 <= j < k - 1 && PrimitiveParses(doc, prims, j, bin));
  }

  /** The surviving primitives among `prims[..k]`, in order. */
  function BuildPrimitives(doc: Document, bin: Option<seq<Bytes.byte>>, prims: seq<Primitive>,
                           materialCount: nat, k: nat): (r: seq<BuiltPrimitive>)
    requires k <= |prims|
    ensures PrimitiveSources(r) == set j | 0 <= j < k && PrimitiveParses(doc, prims, j, bin)
    ensures forall a, b :: 0 <= a < b < |r| ==> r[a].source < r[b].source
    ensures forall q :: q in r ==>
      && q.source < k
      && Ok(q.geometry) == ParseGeometry(doc, prims[q.source], bin)
      && q.material == MaterialFor(prims[q.source], materialCount)
    decreases k
  {
    if k == 0 then []
    else
      var before := BuildPrimitives(doc, bin, prims, materialCount, k - 1);
      assert SourcesExact(doc, bin, prims, k - 1, before) && Ascending(before)
          && Tagged(doc, bin, prims, materialCount, k - 1, before);
      match ParseGeometry(doc, prims[k - 1], bin)
      case Err(_) =>
        SourcesSame(doc, bin, prims, k, before);
        before
      case Ok(g) =>
        var q := BuiltPrimitive(k - 1, g, MaterialFor(prims[k - 1], materialCount));
        SourcesKept(doc, bin, prims, k, before, q);
        AscendingKept(before, q);
        TaggedKept(doc, bin, prims, materialCount, k, before, g);
        before + [q]
  }

  predicate MeshKept(doc: Document, bin: Option<seq<Bytes.byte>>, materialCount: nat, i: int) {
    0 <= i < |doc.meshes|
    && |BuildPrimitives(doc, bin, doc.meshes[i].primitives, materialCount, |doc.meshes[i].primitives|)| > 0
  }

  function GroupSources(r: seq<MeshGroup>): set<nat> {
    set g | g in r :: g.source
  }

  /** The groups built from `meshes[..k]`: one per mesh with a surviving primitive. */
  function BuildGroups(doc: Document, bin: Option<seq<Bytes.byte>>, materialCount: nat, k: nat): (r: seq<MeshGroup>)
    requires k <= |doc.meshes|
    ensures GroupSources(r) == set i | 0 <= i < k && MeshKept(doc, bin, materialCount, i)
    ensures forall a, b :: 0 <= a < b < |r| ==> r[a].source < r[b].source
    ensures forall g :: g in r ==>
      && g.source < k
      && |g.primitives| > 0
      && var prims := doc.meshes[g.source].primitives;
         g.primitives == BuildPrimitives(doc, bin, prims, materialCount, |prims|)
    decreases k
  {
    if k == 0 then []
    else
      var before := BuildGroups(doc, bin, materialCount, k - 1);
      var prims := doc.meshes[k - 1].primitives;
      var built := BuildPrimitives(doc, bin, prims, materialCount, |prims|);
      if |built| > 0 then
        var g := MeshGroup(k - 1, built);
        assert GroupSources(before + [g]) == GroupSources(before) + {k - 1};
        before + [g]
      else before
  }

  /** `parseMeshes`. */
  function ParseMeshes(doc: Document, bin: Option<seq<Bytes.byte>>, materialCount: nat): (r: seq<MeshGroup>)
    ensures |r| <= |doc.meshes|
    ensures GroupSources(r) == set i | 0 <= i < |doc.meshes| && MeshKept(doc, bin, materialCount, i)
    ensures forall a, b :: 0 <= a < b < |r| ==> r[a].source < r[b].source
    ensures forall g :: g in r ==>
      && g.source < |doc.meshes|
      && |g.primitives| > 0
      && var prims := doc.meshes[g.source].primitives;
         g.primitives == BuildPrimitives(doc, bin, prims, materialCount, |prims|)
  {
    var r := BuildGroups(doc, bin, materialCount, |doc.meshes|);
    SortedSourcesBounded(r, |doc.meshes|);
    r
  }

  /** Strictly increasing sources below `n` number at most `n`. */
  lemma {:induction false} SortedSourcesBounded(r: seq<MeshGroup>, n: nat)
    requires forall a, b :: 0 <= a < b < |r| ==> r[a].source < r[b].source
    requires forall g :: g in r ==> g.source < n
    ensures |r| <= n
    decreases n
  {
    if |r| > 0 {
      var last := r[|r| - 1];
      assert last in r;
      forall g | g in r[..|r| - 1]
        ensures g.source < last.source
      {
        var a :| 0 <= a < |r| - 1 && r[a] == g;
      }
      SortedSourcesBounded(r[..|r| - 1], last.source);
    }
  }

  /** Failure isolation: a primitive survives exactly when its own geometry parses,
      whatever its siblings do. */
  lemma PrimitiveSurvivesIff(doc: Document, bin: Option<seq<Bytes.byte>>, prims: seq<Primitive>,
                             materialCount: nat, j: nat)
    requires j < |prims|
    ensures (exists q :: q in BuildPrimitives(doc, bin, prims, materialCount, |prims|) && q.source == j)
        <==> ParseGeometry(doc, prims[j], bin).Ok?
  {
    var r := BuildPrimitives(doc, bin, prims, materialCount, |prims|);
    if ParseGeometry(doc, prims[j], bin).Ok? {
      assert j in PrimitiveSources(r);
    }
  }

  /** The result list is compacted, while a node's `mesh` index is used as a position
      in it: when mesh 0 is dropped and mesh 1 kept, position 0 holds document mesh 1. */
  lemma DroppedMeshShiftsIndices(doc: Document, bin: Option<seq<Bytes.byte>>, materialCount: nat)
    requires !MeshKept(doc, bin, materialCount, 0) && MeshKept(doc, bin, materialCount, 1)
    ensures |ParseMeshes(doc, bin, materialCount)| > 0
    ensures ParseMeshes(doc, bin, materialCount)[0].source == 1
  {
    var r := ParseMeshes(doc, bin, materialCount);
    assert 1 in GroupSources(r);
    var g :| g in r && g.source == 1;
    var a :| 0 <= a < |r| && r[a] == g;
    assert r[0].source <= 1 by {
      if a > 0 {
        assert r[0].source < r[a].source;
      }
    }
    assert r[0].source != 0 by {
      assert r[0] in r;
      assert r[0].source in GroupSources(r);
    }
  }
}

=== FILE: results.dfy ===
/** Failure-compatible wrappers shared by every module of the model.
    JavaScript's `undefined`/`null` become `None`; a thrown exception becomes `Err`. */
module Results {

  datatype Option<+T> = None | Some(value: T) {

    function GetOr(default: T): T {
      match this
      case Some(v) => v
      case None => default
    }
  }

  datatype Result<+T, +E> = Ok(value: T) | Err(error: E) {

    predicate IsFailure() {
      Err?
    }

    function PropagateFailure<U>(): Result<U, E>
      requires Err?
    {
      Err(error)
    }

    function Extract(): T
      requires Ok?
    {
      value
    }
  }
}

=== FILE: scene_graph.dfy ===
/** Scene-graph construction (`buildScene` tree part and `buildNode`,
    src/utils/GLBLoader.js).

    `buildNode` has no cycle guard: a cyclic `children` reference recurses until the
    JavaScript stack overflows. The recursion here carries `fuel`, one unit per level;
    running out is the `RecursionLimit` error standing for that overflow. Every other
    failure is a TypeError the loader does not catch (an unknown node index, or a mesh
    index with no group in the compacted mesh list), so it aborts the whole scene.
    Matrix decomposition is not modelled: a node keeps the matrix or TRS arrays it was
    given. Names are not modelled. */
module SceneGraph {
  import opened Results
  import opened GltfDocument
  import opened Meshes
  import Bytes

  datatype SceneError = NoSuchNode(node: int) | NoSuchMesh(mesh: int) | RecursionLimit

  /** A node's local transform: its matrix when it has one, otherwise whichever of
      translation, rotation and scale it supplies (the rest stay at identity). */
  datatype Transform =
    | FromMatrix(matrix: seq<real>)
    | FromTrs(translation: Option<seq<real>>, rotation: Option<seq<real>>, scale: Option<seq<real>>)

  /** A clone of a prebuilt mesh group, or an empty `Object3D`. */
  datatype Content = MeshClone(group: MeshGroup) | EmptyNode

  datatype SceneNode = SceneNode(source: nat, content: Content, transform: Transform, children: seq<SceneNode>)

  /** The `GLBModel` group returned to the caller. */
  datatype SceneRoot = SceneRoot(children: seq<SceneNode>)

  function TransformOf(n: Node): Transform {
    if n.matrix.Some? then FromMatrix(n.matrix.value) else FromTrs(n.translation, n.rotation, n.scale)
  }

  /** `meshes[nodeDef.mesh].clone()` or `new THREE.Object3D()`. */
  function ContentOf(n: Node, meshes: seq<MeshGroup>): (r: Result<Content, SceneError>)
    ensures n.mesh.None? ==> r == Ok(EmptyNode)
    ensures n.mesh.Some? && InRange(meshes, n.mesh.value) ==> r == Ok(MeshClone(meshes[n.mesh.value]))
    ensures n.mesh.Some? && !InRange(meshes, n.mesh.value) ==> r == Err(NoSuchMesh(n.mesh.value))
  {
    match n.mesh
    case None => Ok(EmptyNode)
    case Some(m) => if InRange(meshes, m) then Ok(MeshClone(meshes[m])) else Err(NoSuchMesh(m))
  }

  /** `t` is the tree `buildNode` makes for node `t.source`, all the way down: the
      node's content and transform, then one faithful subtree per child index, in
      order. Only finite trees exist, so a node on a `children` cycle has none. */
  ghost predicate Faithful(nodes: seq<Node>, meshes: seq<MeshGroup>, t: SceneNode)
    decreases t
  {
    && InRange(nodes, t.source)
    && Ok(t.content) == ContentOf(nodes[t.source], meshes)
    && t.transform == TransformOf(nodes[t.source])
    && |t.children| == |nodes[t.source].children|
    && forall k :: 0 <= k < |t.children| ==>
         t.children[k].source == nodes[t.source].children[k] && Faithful(nodes, meshes, t.children[k])
  }

  function BuildNode(nodes: seq<Node>, index: int, meshes: seq<MeshGroup>, fuel: nat): (r: Result<SceneNode, SceneError>)
    ensures r.Ok? ==>
      && InRange(nodes, index)
      && r.value.source == index
      && Ok(r.value.content) == ContentOf(nodes[index], meshes)
      && r.value.transform == TransformOf(nodes[index])
      && |r.value.children| == |nodes[index].children|
      && forall k :: 0 <= k < |r.value.children| ==> r.value.children[k].source == nodes[index].children[k]
    ensures r.Ok? ==> Faithful(nodes, meshes, r.value)
    ensures fuel > 0 && !InRange(nodes, index) ==> r == Err(NoSuchNode(index))
    decreases fuel, 0
  {
    if fuel == 0 then Err(RecursionLimit)
    else if !InRange(nodes, index) then Err(NoSuchNode(index))
    else
      var n := nodes[index];
      var content :- ContentOf(n, meshes);
      var children :- BuildChildren(nodes, n.children, meshes, fuel - 1);
      Ok(SceneNode(index, content, TransformOf(n), children))
  }

  /** Builds `kids` depth-first, left to right; the first failure aborts the rest. */
  function BuildChildren(nodes: seq<Node>, kids: seq<int>, meshes: seq<MeshGroup>, fuel: nat)
    : (r: Result<seq<SceneNode>, SceneError>)
    ensures r.Ok? ==> |r.value| == |kids| && forall k :: 0 <= k < |kids| ==> r.value[k].source == kids[k]
    ensures r.Ok? ==> forall k :: 0 <= k < |r.value| ==> Faithful(nodes, meshes, r.value[k])
    decreases fuel, |kids|
  {
    if |kids| == 0 then Ok([])
    else
      var first :- BuildNode(nodes, kids[0], meshes, fuel);
      var rest :- BuildChildren(nodes, kids[1..], meshes, fuel);
      Ok([first] + rest)
  }

  /** The tree part of `buildScene`: only `scenes[0]` is used; no scene gives an empty root. */
  function BuildScene(doc: Document, meshes: seq<MeshGroup>, fuel: nat): (r: Result<SceneRoot, SceneError>)
    ensures |doc.scenes| == 0 ==> r == Ok(SceneRoot([]))
    ensures |doc.scenes| > 0 && r.Ok? ==>
      && |r.value.children| == |doc.scenes[0].nodes|
      && forall k :: 0 <= k < |r.value.children| ==> r.value.children[k].source == doc.scenes[0].nodes[k]
    ensures r.Ok? ==> forall k :: 0 <= k < |r.value.children| ==> Faithful(doc.nodes, meshes, r.value.children[k])
  {
    if |doc.scenes| == 0 then Ok(SceneRoot([]))
    else
      var roots :- BuildChildren(doc.nodes, doc.scenes[0].nodes, meshes, fuel);
      Ok(SceneRoot(roots))
  }

  /** Scenes after the first are ignored. */
  lemma OnlyFirstSceneUsed(doc: Document, others: seq<Scene>, meshes: seq<MeshGroup>, fuel: nat)
    requires |doc.scenes| > 0
    ensures BuildScene(doc.(scenes := doc.scenes[..1] + others), meshes, fuel) == BuildScene(doc, meshes, fuel)
  {
  }

  /** A node with a matrix keeps it, whatever translation, rotation or scale it has. */
  lemma MatrixTakesPrecedence(nodes: seq<Node>, index: int, meshes: seq<MeshGroup>, fuel: nat)
    requires InRange(nodes, index) && nodes[index].matrix.Some?
    requires BuildNode(nodes, index, meshes, fuel).Ok?
    ensures BuildNode(nodes, index, meshes, fuel).value.transform == FromMatrix(nodes[index].matrix.value)
  {
  }

  /** More fuel never changes a result that was already reached: the bound only turns
      runaway recursion into `RecursionLimit`. */
  lemma {:induction false} NodeFuelMonotone(nodes: seq<Node>, index: int, meshes: seq<MeshGroup>, fuel: nat, more: nat)
    requires fuel <= more
    requires BuildNode(nodes, index, meshes, fuel).Ok?
    ensures BuildNode(nodes, index, meshes, more) == BuildNode(nodes, index, meshes, fuel)
    decreases fuel, 0
  {
    var n := nodes[index];
    ChildrenFuelMonotone(nodes, n.children, meshes, fuel - 1, more - 1);
  }

  lemma {:induction false} ChildrenFuelMonotone(nodes: seq<Node>, kids: seq<int>, meshes: seq<MeshGroup>, fuel: nat, more: nat)
    requires fuel <= more
    requires BuildChildren(nodes, kids, meshes, fuel).Ok?
    ensures BuildChildren(nodes, kids, meshes, more) == BuildChildren(nodes, kids, meshes, fuel)
    decreases fuel, |kids|
  {
    if |kids| > 0 {
      NodeFuelMonotone(nodes, kids[0], meshes, fuel, more);
      ChildrenFuelMonotone(nodes, kids[1..], meshes, fuel, more);
    }
  }

  /** A node listed as its own child never yields a tree, whatever the fuel: the loader
      recurses until the stack overflows. */
  lemma {:induction false} SelfCycleNeverBuilds(nodes: seq<Node>, index: int, meshes: seq<MeshGroup>, fuel: nat)
    requires InRange(nodes, index) && |nodes[index].children| > 0 && nodes[index].children[0] == index
    requires ContentOf(nodes[index], meshes).Ok?
    ensures BuildNode(nodes, index, meshes, fuel) == Err(RecursionLimit)
    decreases fuel
  {
    if fuel > 0 {
      SelfCycleNeverBuilds(nodes, index, meshes, fuel - 1);
    }
  }

  /** A node's mesh index is a position in the compacted group list, not in the
      document: once mesh 0 is dropped and mesh 1 kept, a node naming mesh 0 gets a
      clone of document mesh 1. */
  lemma MeshIndexAfterDrop(doc: Document, bin: Option<seq<Bytes.byte>>, materialCount: nat, n: Node)
    requires !MeshKept(doc, bin, materialCount, 0) && MeshKept(doc, bin, materialCount, 1)
    requires n.mesh == Some(0)
    ensures var meshes := ParseMeshes(doc, bin, materialCount);
      && |meshes| > 0
      && meshes[0].source == 1
      && ContentOf(n, meshes) == Ok(MeshClone(meshes[0]))
  {
    DroppedMeshShiftsIndices(doc, bin, materialCount);
  }

  // -- Completeness: the contract pins the tree down ---------------------------

  /** Depth of a tree: the number of nodes on its longest branch. */
  function Height(t: SceneNode): (h: nat)
    ensures h >= 1
    decreases t, |t.children| + 1
  {
    1 + ChildrenHeight(t, 0)
  }

  /** The greatest height among the children of `t` from position `k` on. */
  function ChildrenHeight(t: SceneNode, k: nat): (h: nat)
    ensures forall j :: k <= j < |t.children| ==> Height(t.children[j]) <= h
    decreases t, |t.children| - k
  {
    if k >= |t.children| then 0
    else
      var first := Height(t.children[k]);
      var rest := ChildrenHeight(t, k + 1);
      if first >= rest then first else rest
  }

  /** Every faithful tree is what `buildNode` returns once the depth bound covers its
      height: a node with a finite tree is always built, and built as that tree. */
  lemma {:induction false} FaithfulIsBuilt(nodes: seq<Node>, meshes: seq<MeshGroup>, t: SceneNode, fuel: nat)
    requires Faithful(nodes, meshes, t)
    requires Height(t) <= fuel
    ensures BuildNode(nodes, t.source, meshes, fuel) == Ok(t)
    decreases t, |t.children| + 1
  {
    FaithfulChildrenBuilt(nodes, meshes, t, 0, fuel - 1);
    assert nodes[t.source].children[0..] == nodes[t.source].children;
    assert t.children[0..] == t.children;
  }

  lemma {:induction false} FaithfulChildrenBuilt(nodes: seq<Node>, meshes: seq<MeshGroup>, t: SceneNode, k: nat, fuel: nat)
    requires Faithful(nodes, meshes, t)
    requires k <= |t.children|
    requires ChildrenHeight(t, k) <= fuel
    ensures BuildChildren(nodes, nodes[t.source].children[k..], meshes, fuel) == Ok(t.children[k..])
    decreases t, |t.children| - k
  {
    if k < |t.children| {
      var kids := nodes[t.source].children[k..];
      FaithfulIsBuilt(nodes, meshes, t.children[k], fuel);
      FaithfulChildrenBuilt(nodes, meshes, t, k + 1, fuel);
      assert kids[0] == t.children[k].source;
      assert kids[1..] == nodes[t.source].children[k + 1..];
      assert t.children[k..] == [t.children[k]] + t.children[k + 1..];
    } else {
      assert nodes[t.source].children[k..] == [] && t.children[k..] == [];
    }
  }

  /** There is at most one faithful tree per node, so `Faithful` in the builder's
      contract says everything about the tree it returns. */
  lemma {:induction false} FaithfulUnique(nodes: seq<Node>, meshes: seq<MeshGroup>, t: SceneNode, u: SceneNode)
    requires Faithful(nodes, meshes, t) && Faithful(nodes, meshes, u)
    requires t.source == u.source
    ensures t == u
  {
    var fuel := if Height(t) >= Height(u) then Height(t) else Height(u);
    FaithfulIsBuilt(nodes, meshes, t, fuel);
    FaithfulIsBuilt(nodes, meshes, u, fuel);
  }
}

=== FILE: text.dfy ===
/** String helpers standing in for `String.prototype.startsWith`, `includes`,
    `Array.prototype.join` and a splitter used as the join's inverse. */
module Text {

  predicate StartsWith(s: string, prefix: string) {
    |prefix| <= |s| && s[..|prefix|] == prefix
  }

  predicate OccursAt(s: string, sub: string, i: int) {
    0 <= i <= |s| - |sub| && s[i..i + |sub|] == sub
  }

  /** `s.includes(sub)`: `sub` occurs at some position of `s`. */
  predicate Contains(s: string, sub: string) {
    exists i :: 0 <= i <= |s| && OccursAt(s, sub, i)
  }

  /** `parts.join([sep])`. */
  function Join(parts: seq<string>, sep: char): string
  {
    if |parts| == 0 then ""
    else if |parts| == 1 then parts[0]
    else parts[0] + [sep] + Join(parts[1..], sep)
  }

  /** Splits `s` at every `sep`; `Split("", sep) == [""]`. */
  function Split(s: string, sep: char): (r: seq<string>)
    ensures |r| >= 1
    decreases |s|
  {
    if |s| == 0 then [""]
    else
      var rest := Split(s[1..], sep);
      if s[0] == sep then [""] + rest
      else [[s[0]] + rest[0]] + rest[1..]
  }

  /** Splitting a string without separators yields that string alone. */
  lemma {:induction false} SplitNoSep(s: string, sep: char)
    requires sep !in s
    ensures Split(s, sep) == [s]
    decreases |s|
  {
    if |s| > 0 {
      SplitNoSep(s[1..], sep);
      assert [s[0]] + s[1..] == s;
    }
  }

  /** Splitting `a + [sep] + b` where `a` has no separator peels `a` off the front. */
  lemma {:induction false} SplitAfterFirst(a: string, b: string, sep: char)
    requires sep !in a
    ensures Split(a + [sep] + b, sep) == [a] + Split(b, sep)
    decreases |a|
  {
    if |a| == 0 {
      assert a + [sep] + b == [sep] + b;
      assert ([sep] + b)[1..] == b;
    } else {
      assert (a + [sep] + b)[1..] == a[1..] + [sep] + b;
      SplitAfterFirst(a[1..], b, sep);
      assert [a[0]] + a[1..] == a;
    }
  }

  /** Split inverts Join when no part contains the separator. */
  lemma {:induction false} SplitJoin(parts: seq<string>, sep: char)
    requires |parts| >= 1
    requires forall k :: 0 <= k < |parts| ==> sep !in parts[k]
    ensures Split(Join(parts, sep), sep) == parts
    decreases |parts|
  {
    if |parts| == 1 {
      SplitNoSep(parts[0], sep);
    } else {
      SplitJoin(parts[1..], sep);
      SplitAfterFirst(parts[0], Join(parts[1..], sep), sep);
      assert [parts[0]] + parts[1..] == parts;
    }
  }

  /** A character other than the separator that no part contains is not in the join. */
  lemma {:induction false} JoinAvoids(parts: seq<string>, sep: char, c: char)
    requires c != sep
    requires forall k :: 0 <= k < |parts| ==> c !in parts[k]
    ensures c !in Join(parts, sep)
    decreases |parts|
  {
    if |parts| > 1 {
      JoinAvoids(parts[1..], sep, c);
    }
  }
}

=== FILE: textures.dfy ===
/** Index-aligned texture slots (`parseTextures`, src/utils/GLBLoader.js).

    Each texture definition gets its own promise, and every failure inside it (a
    missing source, an external `uri`, a thrown TypeError or RangeError, no canvas,
    an image that fails to decode) resolves that one promise with `null`.
    `Promise.all` then lists the results in definition order. The decode of the data
    URI by the canvas is not modelled: whether the i-th decode succeeds is the input
    `decodeOk(i)`, and whether a canvas with `createImage` exists is `canvas`. */
module Textures {
  import opened Results
  import opened Bytes
  import opened GltfDocument

  const DEFAULT_MIME_TYPE: string := "image/png"

  datatype ImageError = NoSuchBufferView | OutOfBounds

  /** What a successful slot holds: the texture's position, the MIME type of its data
      URI and the image bytes that were base64-encoded into it. */
  datatype DecodedTexture = DecodedTexture(texture: nat, mimeType: string, bytes: seq<byte>)

  /** `new Uint8Array(binaryBuffer, byteOffset, byteLength)` over an image's buffer view.
      A `null` buffer yields an empty array; an absent `byteLength` runs to the end. */
  function ImageBytes(doc: Document, view: int, bin: Option<seq<byte>>): (r: Result<seq<byte>, ImageError>)
    ensures r.Err? <==>
      || !InRange(doc.bufferViews, view)
      || (bin.Some? &&
          var bv := doc.bufferViews[view];
          bv.byteOffset + bv.byteLength.GetOr(0) > |bin.value|)
    ensures r.Ok? && bin.Some? ==>
      var bv := doc.bufferViews[view];
      var end := if bv.byteLength.Some? then bv.byteOffset + bv.byteLength.value else |bin.value|;
      r.value == bin.value[bv.byteOffset..end]
    ensures r.Ok? && bin.None? ==> r.value == []
  {
    if !InRange(doc.bufferViews, view) then Err(NoSuchBufferView)
    else
      var bv := doc.bufferViews[view];
      match bin
      case None => Ok([])
      case Some(b) =>
        if bv.byteOffset > |b| then Err(OutOfBounds)
        else
          match bv.byteLength
          case None => Ok(b[bv.byteOffset..])
          case Some(len) =>
            if bv.byteOffset + len > |b| then Err(OutOfBounds) else Ok(b[bv.byteOffset..bv.byteOffset + len])
  }

  /** `image.mimeType || 'image/png'`. */
  function MimeTypeOf(image: Image): string {
    if image.mimeType.Some? && image.mimeType.value != "" then image.mimeType.value else DEFAULT_MIME_TYPE
  }

  /** The image a texture's `source` names, if it names one that exists. */
  function SourceImage(doc: Document, t: Texture): Option<Image> {
    if t.source.Some? && InRange(doc.images, t.source.value) then Some(doc.images[t.source.value]) else None
  }

  /** The outcome of the i-th texture's promise. */
  function TextureSlot(doc: Document, bin: Option<seq<byte>>, i: nat, canvas: bool, decoded: bool): (r: Option<DecodedTexture>)
    requires i < |doc.textures|
    ensures r.Some? ==> r.value.texture == i && canvas && decoded
    ensures r.Some? ==>
      && SourceImage(doc, doc.textures[i]).Some?
      && SourceImage(doc, doc.textures[i]).value.bufferView.Some?
      && Ok(r.value.bytes) == ImageBytes(doc, SourceImage(doc, doc.textures[i]).value.bufferView.value, bin)
  {
    match SourceImage(doc, doc.textures[i])
    case None => None
    case Some(image) =>
      if image.bufferView.None? then None
      else
        match ImageBytes(doc, image.bufferView.value, bin)
        case Err(_) => None
        case Ok(bytes) =>
          if canvas && decoded then Some(DecodedTexture(i, MimeTypeOf(image), bytes)) else None
  }

  function ParseTextures(doc: Document, bin: Option<seq<byte>>, canvas: bool, decodeOk: nat -> bool)
    : (slots: seq<Option<DecodedTexture>>)
    ensures |slots| == |doc.textures|
    ensures forall i :: 0 <= i < |slots| ==> slots[i] == TextureSlot(doc, bin, i, canvas, decodeOk(i))
  {
    seq(|doc.textures|, i requires 0 <= i < |doc.textures| => TextureSlot(doc, bin, i, canvas, decodeOk(i)))
  }

  /** A slot holds a texture exactly when the texture has a source image that exists,
      the image is embedded through a buffer view whose byte window lies inside the
      binary chunk, a canvas is available and the decode succeeds. An image with only
      a `uri` never yields a texture. */
  lemma SlotPresentIff(doc: Document, bin: Option<seq<byte>>, canvas: bool, decodeOk: nat -> bool, i: nat)
    requires i < |doc.textures|
    ensures var slot := ParseTextures(doc, bin, canvas, decodeOk)[i];
      slot.Some? <==>
        && doc.textures[i].source.Some?
        && InRange(doc.images, doc.textures[i].source.value)
        && doc.images[doc.textures[i].source.value].bufferView.Some?
        && ImageBytes(doc, doc.images[doc.textures[i].source.value].bufferView.value, bin).Ok?
        && canvas
        && decodeOk(i)
    ensures var slot := ParseTextures(doc, bin, canvas, decodeOk)[i];
      slot.Some? ==>
        var image := doc.images[doc.textures[i].source.value];
        && slot.value.mimeType == MimeTypeOf(image)
        && Ok(slot.value.bytes) == ImageBytes(doc, image.bufferView.value, bin)
  {
  }

  /** Sibling slots are unaffected: replacing texture j (or its decode outcome) leaves
      every other slot as it was. */
  lemma SiblingsUnaffected(doc: Document, bin: Option<seq<byte>>, canvas: bool,
                           decodeOk: nat -> bool, decodeOk': nat -> bool, j: nat, t: Texture, i: nat)
    requires j < |doc.textures| && i < |doc.textures| && i != j
    requires decodeOk(i) == decodeOk'(i)
    ensures ParseTextures(doc.(textures := doc.textures[j := t]), bin, canvas, decodeOk')[i]
         == ParseTextures(doc, bin, canvas, decodeOk)[i]
  {
    var doc' := doc.(textures := doc.textures[j := t]);
    assert doc'.textures[i] == doc.textures[i];
    assert TextureSlot(doc', bin, i, canvas, decodeOk'(i)) == TextureSlot(doc, bin, i, canvas, decodeOk(i));
  }

  /** Without a canvas every slot is empty, but there is still one per texture. */
  lemma NoCanvasNoTextures(doc: Document, bin: Option<seq<byte>>, decodeOk: nat -> bool)
    ensures var slots := ParseTextures(doc, bin, false, decodeOk);
      |slots| == |doc.textures| && forall i :: 0 <= i < |slots| ==> slots[i].None?
  {
  }
}

=== FILE: utf8.dfy ===
/** The loader's own UTF-8 decoder (`decodeUTF8`, src/utils/GLBLoader.js).
    It is a lossy approximation of section 3 of RFC 3629: the lead byte alone picks the
    sequence length, continuation bytes are not validated, a byte read past the end
    counts as 0 (`undefined & 63` is 0 in JavaScript), and a 4-byte sequence is skipped
    without emitting anything. Output is a sequence of UTF-16 code units, which is what
    `String.fromCharCode` appends. */
module Utf8 {
  import opened Bytes

  /** One UTF-16 code unit of a JavaScript string. */
  type CodeUnit = u: int | 0 <= u < 0x1_0000

  /** `bytes[i]` as the bit operations see it: 0 when `i` is past the end. */
  function ByteOr0(b: seq<byte>, i: nat): byte {
    if i < |b| then b[i] else 0
  }

  /** The bytes left after advancing `n` positions (nothing once past the end). */
  function Drop(b: seq<byte>, n: nat): (r: seq<byte>)
    ensures |r| == if n >= |b| then 0 else |b| - n
  {
    if n >= |b| then [] else b[n..]
  }

  /** Number of bytes the decoder advances over for lead byte `c`. */
  function StepLength(c: byte): nat {
    if c < 128 then 1 else if c < 224 then 2 else if c < 240 then 3 else 4
  }

  /** The code unit emitted for the sequence starting at the front of `b`. */
  function UnitAt(b: seq<byte>): CodeUnit
    requires |b| > 0 && b[0] < 240
  {
    var c := b[0] as int;
    if c < 128 then c
    else if c < 224 then (c % 32) * 64 + ByteOr0(b, 1) % 64
    else (c % 16) * 4096 + (ByteOr0(b, 1) % 64) * 64 + ByteOr0(b, 2) % 64
  }

  /** Reference definition of `decodeUTF8`, one lead byte at a time. */
  function Decode(b: seq<byte>): (r: seq<CodeUnit>)
    ensures |r| <= |b|
    decreases |b|
  {
    if |b| == 0 then []
    else if b[0] >= 240 then Decode(Drop(b, 4))
    else [UnitAt(b)] + Decode(Drop(b, StepLength(b[0])))
  }

  lemma DropDrop(b: seq<byte>, i: nat, n: nat)
    requires i < |b|
    ensures Drop(b[i..], n) == Drop(b, i + n)
  {
  }

  /** One turn of the loop: the decoding from position `i` is what the sequence at `i`
      emits followed by the decoding after it. */
  lemma DecodeStep(b: seq<byte>, i: nat)
    requires i < |b|
    ensures Decode(Drop(b, i)) ==
      (if b[i] >= 240 then [] else [UnitAt(b[i..])]) + Decode(Drop(b, i + StepLength(b[i])))
  {
    DropDrop(b, i, StepLength(b[i]));
    assert Drop(b, i) == b[i..];
  }

  /** A turn of the loop that emits a code unit keeps its invariant. */
  lemma EmitStep(bytes: seq<byte>, i: nat, result: seq<CodeUnit>)
    requires i < |bytes| && bytes[i] < 240
    requires result + Decode(Drop(bytes, i)) == Decode(bytes)
    ensures (result + [UnitAt(bytes[i..])]) + Decode(Drop(bytes, i + StepLength(bytes[i]))) == Decode(bytes)
  {
    DecodeStep(bytes, i);
    var after := Decode(Drop(bytes, i + StepLength(bytes[i])));
    assert result + ([UnitAt(bytes[i..])] + after) == (result + [UnitAt(bytes[i..])]) + after;
  }

  /** A turn of the loop that skips a 4-byte sequence keeps its invariant. */
  lemma SkipStep(bytes: seq<byte>, i: nat, result: seq<CodeUnit>)
    requires i < |bytes| && bytes[i] >= 240
    requires result + Decode(Drop(bytes, i)) == Decode(bytes)
    ensures result + Decode(Drop(bytes, i + StepLength(bytes[i]))) == Decode(bytes)
  {
    DecodeStep(bytes, i);
    assert [] + Decode(Drop(bytes, i + StepLength(bytes[i]))) == Decode(Drop(bytes, i + StepLength(bytes[i])));
  }

  /** The loader's `while` loop: it computes exactly `Decode(bytes)`. The three
      branches that emit a code unit are `UnitAt` at position `i`. */
  method DecodeUtf8(bytes: seq<byte>) returns (result: seq<CodeUnit>)
    ensures result == Decode(bytes)
    ensures |result| <= |bytes|
  {
    result := [];
    var i: nat := 0;
    while i < |bytes|
      invariant result + Decode(Drop(bytes, i)) == Decode(bytes)
      decreases |bytes| - i
    {
      var c := bytes[i];
      if c < 240 {
        EmitStep(bytes, i, result);
        result := result + [UnitAt(bytes[i..])];
      } else {
        SkipStep(bytes, i, result);
      }
      i := i + StepLength(c);
    }
  }

  /** Pure-ASCII input decodes to itself, one code unit per byte. */
  lemma {:induction false} AsciiDecodesToItself(b: seq<byte>)
    requires forall k :: 0 <= k < |b| ==> b[k] < 128
    ensures Decode(b) == b
    decreases |b|
  {
    if |b| > 0 {
      AsciiDecodesToItself(b[1..]);
      assert [b[0]] + b[1..] == b;
    }
  }

  /** A sequence whose lead byte is 0xF0 or above contributes nothing to the output. */
  lemma FourByteSequenceDropped(four: seq<byte>, rest: seq<byte>)
    requires |four| == 4 && four[0] >= 240
    ensures Decode(four + rest) == Decode(rest)
  {
    assert Drop(four + rest, 4) == rest;
  }

  /** Standard UTF-8 encoding of one code unit in one, two or three bytes. */
  function EncodeUnit(u: CodeUnit): (r: seq<byte>)
    ensures 1 <= |r| <= 3
  {
    if u < 0x80 then [u]
    else if u < 0x800 then [0xC0 + u / 64, 0x80 + u % 64]
    else [0xE0 + u / 4096, 0x80 + (u / 64) % 64, 0x80 + u % 64]
  }

  function Encode(s: seq<CodeUnit>): seq<byte>
  {
    if |s| == 0 then [] else EncodeUnit(s[0]) + Encode(s[1..])
  }

  lemma DecodeEncodedUnit(u: CodeUnit, rest: seq<byte>)
    ensures Decode(EncodeUnit(u) + rest) == [u] + Decode(rest)
  {
    var e := EncodeUnit(u) + rest;
    assert Drop(e, |EncodeUnit(u)|) == rest;
    assert UnitAt(e) == u by {
      if u < 0x80 {
      } else if u < 0x800 {
        TwoByteUnit(u, e);
      } else {
        ThreeByteUnit(u, e);
      }
    }
  }

  lemma TwoByteUnit(u: CodeUnit, e: seq<byte>)
    requires 0x80 <= u < 0x800
    requires |e| >= 2 && e[0] == 0xC0 + u / 64 && e[1] == 0x80 + u % 64
    ensures UnitAt(e) == u
  {
    assert e[0] % 32 == u / 64;
    assert ByteOr0(e, 1) % 64 == u % 64;
  }

  lemma ThreeByteUnit(u: CodeUnit, e: seq<byte>)
    requires 0x800 <= u
    requires |e| >= 3 && e[0] == 0xE0 + u / 4096 && e[1] == 0x80 + (u / 64) % 64 && e[2] == 0x80 + u % 64
    ensures UnitAt(e) == u
  {
    var hi, mid, lo := u / 4096, (u / 64) % 64, u % 64;
    assert e[0] % 16 == hi;
    assert ByteOr0(e, 1) % 64 == mid;
    assert ByteOr0(e, 2) % 64 == lo;
    assert u / 64 == hi * 64 + mid;
    assert u == (u / 64) * 64 + lo;
  }

  /** Round trip: the decoder recovers every string of code units from its UTF-8 encoding. */
  lemma {:induction false} DecodeEncode(s: seq<CodeUnit>)
    ensures Decode(Encode(s)) == s
  {
    if |s| > 0 {
      DecodeEncodedUnit(s[0], Encode(s[1..]));
      DecodeEncode(s[1..]);
      assert [s[0]] + s[1..] == s;
    }
  }
}
